=== FILE: README.md ===
# HW1 image processing: a Dafny model of its core

The repository is a set of Python scripts for gray-level image processing
homework. The scripts read and write binary PGM (P5) files, combine images
with saturating arithmetic, compute and remap histograms, and compute image
moments. This project models the computational core of those scripts,
mostly as pure Dafny functions; `mapColor` and `pqMoment` are methods with
loops, as in the source. It proves what each operation guarantees.

- `results.dfy` (`Results`): `Option` and `Result` with failure propagation.
- `raster.dfy` (`Raster`): an image is a list of rows of integers, indexed
  `pixels[x][y]` with `x` the row. This module holds `sum(pixels, [])`
  (`Flatten`), `Sum`, and the shape predicates:
  - `Reaches`: every cell the `for x in range(height): for y in range(width)`
    loops visit exists.
  - `Rectangular`: the image has exactly `height` rows, each `width` long.
  - `CellsWithin`: every cell lies in a given range.
- `pytext.dfy` (`PyText`): the Python built-ins the header handling relies
  on. It covers `str.strip`, `str.split()`, `int()` on text (sign, digits,
  underscores between digits, and surrounding tab, line feed, vertical tab,
  form feed, carriage return or space), `str()` on an int, slicing with
  negative bounds, and list indexing with negative indices. `str.strip` and
  `str.split` treat four more characters as whitespace than `int()` does:
  the separators 0x1C..0x1F.
- `pgm.dfy` (`Pgm`): the PGM P5 codec. `ReadPgm` is `readPGM`, `WritePgm`
  is `writePixelsToPGM`, and `WriteFile` is `writePGM`.
  - The same `readPGM` is copied into `AlgebraicOP.py`, `PointOP.py`,
    `GeometricOP.py`, `ObjectMoment.py` and `Histogram.py`. The copies
    differ only in how they spell the dimension split, so one model covers
    all five.
  - The file is a byte sequence. `readline` and `decode()` are modelled on
    it directly.
- `algebraic.dfy` (`Algebraic`): `combineLists`, `combineNumAndList` and the
  excess-green/blue/red and intensity images built from them.
- `histogram.dfy` (`Histogram`): `createHistogram`, `mapHistogram`,
  `mapColor`, and the `histogram.index(k)` lookups of the histogram script.
- `moments.dfy` (`Moments`): `pqMoment` and the zero-mass guard at the
  start of `centralMoments`.

`GeometricOP.py` holds only `readPGM`, the PGM writers, `createHistogram`
and a plotting script; it has no geometric transform, so there is none in
the model.

Python errors are modelled as values: `Failure(IndexError)`,
`Failure(KeyError)`, `Failure(ValueError)` and `Failure(ZeroDivisionError)`,
plus the reader's own `NotP5`, `BadMaxGray` and `BadDimension`, and the
writer's `ByteOutOfRange` (the ValueError `bytes()` raises for a cell
outside 0..255). An operation fails in the model when the Python code would
raise, with these exceptions:
- CPython refuses to convert an integer of more than 4300 decimal digits
  with `int()` or `str()`. The model has no such limit.
- There are two failures where Python may succeed. `NonAsciiHeader` covers
  header bytes outside ASCII: Python accepts them when they are valid
  multi-byte UTF-8, and raises UnicodeDecodeError, a ValueError, otherwise.
  `UnmodelledOperator` covers the '/' and '**' operators.

All of these are listed under "Left out".

## Model

| member | source | states |
|---|---|---|
| PyText.ParseIntToString | AlgebraicOP.py:65 | `int()` applied to the text `str(n)` produces `n` again, for every integer `n`, negative ones included |
| PyText.StripTrailingSpace | Histogram.py:31 | `strip()` drops the line feed that `readline` leaves on the max-gray line, so the text `int()` sees does not depend on it |
| PyText.IntOfStripped | PointOP.py:34 | after `strip()` no whitespace of either kind is left, so `int(line.strip())` parses exactly the stripped text |
| PyText.SeparatorNeedsStrip | AlgebraicOP.py:31 | `int()` alone rejects a trailing 0x1E separator; `strip()` removes it first, so the reader's `int(line.strip())` accepts the line |
| PyText.ForwardSlice | Histogram.py:35 | a slice with non-negative bounds takes the elements from the lower bound up to the upper bound, cut at the end of the list |
| Raster.FlattenRow | AlgebraicOP.py:66 | in the row-major list `sum(pixels, [])` of a rectangular image, row r occupies positions r*width up to (r+1)*width |
| Raster.FlattenWithin | AlgebraicOP.py:66 | every element of `sum(pixels, [])` is in range exactly when every cell of every row is |
| Pgm.ReadPgm | AlgebraicOP.py:19-37 | a successful read has `height` rows (none when height is negative), bytes as cells, and no row longer than a non-negative width |
| Pgm.SkipComments | AlgebraicOP.py:25-29 | the line the loop stops at, stripped, does not start with '#', and the only way the loop fails is a non-ASCII header line; `Pgm.SkipCommentLines` states that comment lines are skipped whole |
| Pgm.ParseDimension | AlgebraicOP.py:32 | `map(int, dimension.split())` and the unpacking fail only with ValueError (`BadDimension`); `Pgm.DimensionLine`, `Pgm.TooFewDimensions` and `Pgm.TooManyDimensions` state which lines succeed and with which values |
| Pgm.PixelRows | AlgebraicOP.py:35 | the reader builds exactly `height` rows (none for a negative height) of byte values; `Pgm.PayloadRows` states which bytes each row holds |
| Pgm.ReadLayout | AlgebraicOP.py:21-37 | on a file with a magic line, comment lines, a dimension line, a max-gray line and pixel bytes, the result is NotP5, then BadMaxGray, then BadDimension, in that order of checking; otherwise it is the parsed header with the bytes cut into rows |
| Pgm.RejectsNonP5Magic | PointOP.py:24-26 | "not a PGM P5 format" is raised exactly when the first line decodes and its stripped text is not "P5" |
| Pgm.SkipCommentLines | GeometricOP.py:28-32 | any number of lines starting with '#' after the magic line are skipped, and the next line is taken as the dimension line |
| Pgm.LateCommentRejected | GeometricOP.py:28-34 | a comment line in the max-gray position is not skipped; `int()` rejects it |
| Pgm.CommentIsNoInt | Histogram.py:31 | a line whose stripped text begins with '#' is never accepted by `int(line.strip())` |
| Pgm.DimensionLine | PointOP.py:35 | for a line of two words with any whitespace around and between them, the first word is the width and the second the height, and the line is accepted exactly when both words are ints |
| Pgm.TooFewDimensions | ObjectMoment.py:32-33 | a blank dimension line, or one with a single word, is rejected |
| Pgm.TooManyDimensions | ObjectMoment.py:32-33 | a dimension line of three or more words is rejected, whatever the words are; with `Pgm.TooFewDimensions` and `Pgm.DimensionLine`, a line is accepted only when it has exactly two words |
| Pgm.PayloadRows | GeometricOP.py:37-38 | row r is the r-th run of `width` bytes after the header while the data lasts; then comes one short row, then empty rows |
| Pgm.CompletePayload | PointOP.py:37-38 | with at least height*width bytes of data, the pixels form a full height-by-width rectangle of bytes |
| Pgm.TrailingBytesIgnored | Histogram.py:34-35 | bytes after the last complete row do not change the pixels |
| Pgm.WriteFile | AlgebraicOP.py:49-51 | the written file ends with a line feed followed by the pixel payload, unchanged |
| Pgm.WritePgm | AlgebraicOP.py:65-68 | writing fails exactly when some cell is outside 0..255; otherwise the file is the three header lines followed by the cells in row-major order |
| Pgm.HeaderFields | GeometricOP.py:68 | the header lines written parse back to the width, height and max gray that were written |
| Pgm.WrittenLayout | PointOP.py:165-168 | the file written has a "P5" magic line, no comments, the dimension line, the max-gray line, then the cells |
| Pgm.RoundTrip | AlgebraicOP.py:19-68 | reading back what `writePixelsToPGM` wrote gives the same width, height, max gray and pixels, for any rectangular image of bytes |
| Algebraic.Clamp | AlgebraicOP.py:99-104 | the result is in 0..255: values above 255 become 255, values below 0 become 0, all others are unchanged |
| Algebraic.ClampNearest | AlgebraicOP.py:137-142 | the clamped value is the byte nearest to the unclamped one |
| Algebraic.LookupOperator | AlgebraicOP.py:87-94 | the lookup succeeds exactly for "+", "-" and "*"; "/" and "**" are in the table but left unmodelled; any other name is a KeyError |
| Algebraic.CombineLists | AlgebraicOP.py:70-106 | an empty first image raises IndexError; an unknown operator raises KeyError; otherwise the call succeeds exactly when the second image covers the first's rectangle, and the result has the first image's shape, with each cell the clamped result of the operator on the two cells |
| Algebraic.CombineNumAndList | AlgebraicOP.py:108-144 | the same as `combineLists`, with `num` as the left operand of every cell |
| Algebraic.ExtraCellsIgnored | AlgebraicOP.py:96-98 | cells of the second image outside the first image's rectangle never affect the result |
| Algebraic.NumIsLeftOperand | AlgebraicOP.py:136 | with "-", each cell is `num - p`, clamped, and not `p - num` |
| Algebraic.Excess | AlgebraicOP.py:161-163 | the scale-then-subtract-difference pipeline fails only with IndexError, and succeeds exactly when the main channel is a non-empty image whose first row's width every row reaches, the first subtracted channel likewise, the second reaches the first's rectangle, and (unless the main channel's rows are empty) the first's rectangle holds the main's; the result has the main channel's shape and byte cells, each clamp(clamp(num*main) - clamp(first - second)) |
| Algebraic.ExcessGreen | AlgebraicOP.py:146-165 | an empty g raises IndexError and every failure is an IndexError; a result has g's shape, r and b cover that rectangle, and each cell is clamp(clamp(num*g) - clamp(r - b)) |
| Algebraic.ExcessBlue | AlgebraicOP.py:167-186 | an empty b raises IndexError and every failure is an IndexError; a result has b's shape, g and r cover that rectangle, and each cell is clamp(clamp(num*b) - clamp(g - r)) |
| Algebraic.ExcessRed | AlgebraicOP.py:188-207 | an empty r raises IndexError and every failure is an IndexError; a result has r's shape, b and g cover that rectangle, and each cell is clamp(clamp(num*r) - clamp(b - g)) |
| Algebraic.ExcessCells | AlgebraicOP.py:161-163 | on same-shaped channels, the excess image is defined, and each cell is clamp(num*main) minus clamp(first - second), clamped |
| Algebraic.ExcessEmptyMain | AlgebraicOP.py:161 | an empty main channel raises IndexError |
| Algebraic.ExcessChannelCells | AlgebraicOP.py:158-205 | excessGreen scales g and subtracts r - b; excessBlue scales b and subtracts g - r; excessRed scales r and subtracts b - g |
| Algebraic.ExcessIgnoresSmallDifference | AlgebraicOP.py:162-163 | wherever the first subtracted channel is at most the second, the excess cell is just clamp(num*main) |
| Algebraic.DocumentedExcessFails | AlgebraicOP.py:148 | on the single pixel r=0, g=100, b=10 with num 1, the code yields 100 where the documented excess green `num*g-r-b` is 90 (the value `Algebraic.IntendedExcessExample` gives); blue and red fail the same way |
| Algebraic.IntendedExcessCells | AlgebraicOP.py:146-165 | subtracting the two channels one after the other gives clamp(clamp(num*main) - first - second) on byte channels; wherever num*main <= 255, that is the docstring's num*main - first - second, clamped once |
| Algebraic.IntendedExcessExample | AlgebraicOP.py:148 | the corrected excess green gives the documented 90 on the same pixel |
| Algebraic.Intensity | AlgebraicOP.py:221-226 | an empty red channel raises IndexError and every failure is an IndexError; it succeeds exactly when every row of r reaches the width of its first row and b and g cover r's rectangle (they may be larger); the result has r's shape and byte cells, each clamp(num * clamp(clamp(r + b) + g)) |
| Algebraic.IntensityCells | AlgebraicOP.py:224-226 | on same-shaped channels, each cell is num times clamp(clamp(r + b) + g), clamped |
| Algebraic.IntensityFormula | AlgebraicOP.py:211 | for non-negative channels, the saturated steps give the documented clamp(num*(r+g+b)) |
| Histogram.Tally | PointOP.py:70-72 | the counting loop succeeds exactly when every pixel is a valid list index of the bins; otherwise it raises IndexError; it keeps the number of bins, and adds one to the total per pixel |
| Histogram.CreateHistogram | PointOP.py:56-74 | the histogram has maxGray + 1 bins, or raises IndexError |
| Histogram.HistogramDefined | GeometricOP.py:85-89 | `createHistogram` succeeds exactly when every pixel is a valid index into maxGray + 1 bins; negative pixels count from the end |
| Histogram.HistogramCounts | PointOP.py:68-74 | for pixels in 0..maxGray, bin g holds the number of pixels equal to g, and the bins add up to the number of pixels |
| Histogram.HistogramIsCounts | GeometricOP.py:73-91 | for pixels in 0..maxGray, the histogram is the occurrence count of each level in `sum(pixels, [])` |
| Histogram.CompleteHistogramSum | Histogram.py:53-55 | the histogram of a width-by-height image in 0..maxGray adds up to width*height |
| Histogram.AboveMaxGrayFails | PointOP.py:72 | a pixel above maxGray raises IndexError |
| Histogram.Redistribute | PointOP.py:110-113 | moving the first k levels succeeds exactly when each of their targets is a valid index; bin v then holds the summed counts of the moved levels that map to v, and the total is the moved levels' total |
| Histogram.MapHistogram | PointOP.py:97-115 | as written, the remap moves levels 0..maxGray-1; bin v receives exactly the counts of those levels whose target is v |
| Histogram.TopBinDropped | PointOP.py:112 | as written, the remapped histogram's total is the input total minus the top level's count |
| Histogram.TopLevelLost | PointOP.py:112 | with max gray 1, one pixel at level 1 and the identity table, the as-written remap returns [0, 0]; the corrected one returns [0, 1] |
| Histogram.MapHistogramAll | PointOP.py:110-113 | with all maxGray + 1 levels moved, the remap keeps the histogram's total |
| Histogram.TopBinOnly | PointOP.py:112-113 | the corrected and the as-written remaps differ only by the top level's count, added at that level's target |
| Histogram.MapColor | PointOP.py:138-151 | recolouring succeeds exactly when every visited cell exists and indexes the table; otherwise it raises IndexError; the image keeps its shape, each visited cell becomes its table entry, and cells outside the region are unchanged |
| Histogram.EqualizedHistogram | PointOP.py:97-151 | the histogram of the recoloured image is the remap of the original histogram through the same table, with all levels moved |
| Histogram.EqualizedHistogramAsWritten | PointOP.py:110-113 | the histogram of the recoloured image is the as-written `mapHistogram` prediction plus the top level's count at its target |
| Histogram.IndexOf | Histogram.py:65-69 | `list.index(k)` returns the first position holding k, and raises ValueError exactly when no entry is k |
| Histogram.HistogramIndex | Histogram.py:63-69 | `histogram.index(k)` is the lowest gray level with exactly k pixels; it raises exactly when no level has k pixels |
| Moments.PqMoment | ObjectMoment.py:40-47 | with non-negative exponents the loop succeeds exactly when every visited cell exists, raising IndexError otherwise, and returns the double sum of x^p * y^q * pixels[x][y] over the region; with a negative p or q it raises ZeroDivisionError at the first cell (`0 ** -k`) of a non-empty region, and returns 0 for an empty one |
| Moments.MomentNonNegative | ObjectMoment.py:43-45 | the moment of an image with non-negative pixels is non-negative |
| Moments.ZeroImage | ObjectMoment.py:43-45 | an image that is zero on the region has moment 0 |
| Moments.RowZeroIgnored | ObjectMoment.py:45 | for p >= 1, row 0 contributes nothing: images that agree outside row 0 have equal moments |
| Moments.ColumnZeroIgnored | ObjectMoment.py:45 | for q >= 1, column 0 contributes nothing |
| Moments.MomentAdditive | ObjectMoment.py:43-45 | the moment of a cell-wise sum of two images is the sum of their moments |
| Moments.TotalIntensity | ObjectMoment.py:53 | for a rectangular image, m00 is the sum of all pixels |
| Moments.BlankIffZeroMass | ObjectMoment.py:53-54 | for non-negative pixels, m00 is zero exactly when the region is blank |
| Moments.CentroidOf | ObjectMoment.py:51-55 | the prologue of `centralMoments` raises IndexError exactly when the region is not reachable, and ZeroDivisionError exactly when it is reachable and m00 is zero; otherwise it returns the image's moments m10, m01 and m00 |
| Moments.BlankImageHasNoCentroid | ObjectMoment.py:51-55 | for non-negative pixels, `centralMoments` divides by zero exactly when the region is blank |

## Left out

- File access: the model reads and writes byte sequences. Opening, reading and writing the files, and the fixed paths the scripts use, are not modelled.
- The script parts of each file are not modelled: plotting with matplotlib, `print`, the `cv2` usage in `Test.py`, and the plotting block of `AlgebraicOP.py` (lines 230-256), whose `def` line is commented out.
- `equalize` (PointOP.py:76-95) computes the table with floating point. The model takes the table `eq` as a given list of integers.
- `pointOperate` (PointOP.py:117-136) is float arithmetic followed by a numpy cast, so it is not modelled.
- `centralMoments` and `normalizedMoments`: only the raw moments and the division guard are modelled. Their float sums, the non-integer powers and the normalisation are not.
- Algebraic.LookupOperator: "/" and "**" are not modelled and are reported as `UnmodelledOperator`. '/' always yields a float, '**' yields one for a negative exponent and raises ZeroDivisionError for a base of 0 with a negative exponent, and no call in the scripts uses either. A non-integer `num` (such as `intensity(1/3, ...)`) is not modelled either.
- The `if not operator` check in `combineLists` and `combineNumAndList` never fires after a successful dictionary lookup, so the model has no branch for it.
- Histogram.MapColor: `mapColor` updates its argument in place and returns None; the model returns the updated copy instead. When it raises part-way, the model keeps no trace of the cells it already updated. Rows are assumed to be distinct lists (no aliasing): with `pixels = [[0, 0]] * 2` Python remaps the shared row twice, the model once per row.
- Pgm.ReadPgm: a header byte outside ASCII is reported as `NonAsciiHeader`. Python's UTF-8 decoding of such bytes is not modelled: valid multi-byte UTF-8 is decoded and may be accepted, invalid UTF-8 raises UnicodeDecodeError.
- PyText.ParseInt: CPython's `int()` raises ValueError on text of more than 4300 digits; the model parses any length. So `Pgm.ReadPgm` and `Pgm.ReadLayout` accept a header number that Python rejects.
- PyText.ParseIntToString: holds for every integer in the model; CPython's `str()` raises ValueError on an integer of more than 4300 digits, so the round trip holds in Python only below that size.
- Pgm.WritePgm: the model's writer fails only on a cell outside 0..255; Python's `str()` in the header also raises when the width, height or max gray has more than 4300 digits.
- Pgm.HeaderFields: states the header round trip for every integer; in Python it holds only for numbers of at most 4300 digits.
- Pgm.RoundTrip: states the file round trip for every width, height and max gray; in Python it holds only when each has at most 4300 digits.
- Histogram.CreateHistogram: the success condition is stated in `Histogram.HistogramDefined` rather than on the function itself.
- Pgm.ReadPgm: the function's own contract states only the shape and the byte range. The exact outcome is stated in `Pgm.ReadLayout`, for files laid out as header lines and payload.
- numpy is not modelled. Images are lists of lists of unbounded integers.

## Findings

| source | as written | input that shows it | evidently intended | confidence | as-written member | corrected member |
|---|---|---|---|---|---|---|
| PointOP.py:112 | `for i in range(maxGrayLevel)` moves levels 0..maxGray-1 only | max gray 1, histogram [0, 1], table [0, 1]: the result is [0, 0] and the pixel at level 1 is lost | `range(maxGrayLevel + 1)`, giving [0, 1] and keeping the total | high, not executed | Histogram.TopLevelLost | Histogram.MapHistogramAll |
| AlgebraicOP.py:161-163 | `combineLists(multiG, '-', combineLists(r, '-', b))` computes clamp(num*g) - clamp(r - b), and likewise at lines 182-184 and 203-205 | num 1, r 0, g 100, b 10: the result is 100 | the docstring's `num*g-r-b`, computed by subtracting one channel at a time with the combiners' saturation: 90 here, and exactly `num*g-r-b` clamped wherever num*g <= 255 (a saturated product stays at 255 first) | medium, not executed | Algebraic.DocumentedExcessFails | Algebraic.IntendedExcessCells |

=== FILE: algebraic.dfy ===
/** Saturating cell-by-cell arithmetic on images (`AlgebraicOP.py`):
    `combineLists` and `combineNumAndList` apply an operator looked up by
    name and clamp each result to [0, 255]; the excess-channel and intensity
    images are compositions of the two. Operands are integers. */
module Algebraic {
  import opened Results
  import opened Raster

  /** The operators of the lookup table whose integer results are integers. */
  datatype Operator = Plus | Minus | Times

  datatype ArithError =
    | IndexError          // a row or cell the loops visit does not exist
    | KeyError            // the operator name is not in the table
    | UnmodelledOperator  // '/' or '**': in the table, not modelled

  /** The three colour channels of an image, as the `channels` dict holds them. */
  datatype Channels = Channels(r: Image, g: Image, b: Image)

  /** The saturation both combiners apply to every result. */
  function Clamp(v: int): (c: int)
    ensures 0 <= c <= 255
    ensures 255 < v ==> c == 255
    ensures v < 0 ==> c == 0
    ensures 0 <= v <= 255 ==> c == v
  {
    if v > 255 then 255 else if v < 0 then 0 else v
  }

  /** The clamped value is the byte nearest to the unclamped one. */
  lemma ClampNearest(v: int, t: int)
    requires 0 <= t <= 255
    ensures Abs(Clamp(v) - v) <= Abs(t - v)
  {
  }

  function Abs(v: int): nat
  {
    if v < 0 then -v else v
  }

  /** The `op[operator]` dictionary lookup. '/' and '**' are in the table
      but not modelled: '/' always yields a float, '**' yields one for a
      negative exponent (and raises ZeroDivisionError for a base of 0), and
      no caller in the scripts uses either. */
  function LookupOperator(name: string): (r: Result<Operator, ArithError>)
    ensures r.Success? <==> name == "+" || name == "-" || name == "*"
    ensures r.Success? ==> name == (match r.value case Plus => "+" case Minus => "-" case Times => "*")
    ensures r.Failure? ==> (r.error == UnmodelledOperator <==> name == "/" || name == "**")
    ensures r.Failure? ==> r.error in {KeyError, UnmodelledOperator}
  {
    if name == "+" then Success(Plus)
    else if name == "-" then Success(Minus)
    else if name == "*" then Success(Times)
    else if name == "/" || name == "**" then Failure(UnmodelledOperator)
    else Failure(KeyError)
  }

  function Apply(op: Operator, x: int, y: int): int
  {
    match op
    case Plus => x + y
    case Minus => x - y
    case Times => x * y
  }

  /** `combineLists(pixelsA, operator, pixelsB)`: the output has `pixelsA`'s
      height and the width of its first row; cell (x, y) is the clamped
      `pixelsA[x][y] op pixelsB[x][y]`. An empty `pixelsA` fails on
      `pixelsA[0]` before the operator is looked up; a row of either image
      too short for that rectangle fails in the loop (`pixelsB` is not read
      at all when that first row is empty). */
  function CombineLists(a: Image, name: string, b: Image): (r: Result<Image, ArithError>)
    ensures |a| == 0 ==> r == Failure(IndexError)
    ensures 0 < |a| && LookupOperator(name).Failure? ==> r == Failure(LookupOperator(name).error)
    ensures r.Success? <==>
      && 0 < |a| && LookupOperator(name).Success?
      && Covers(a, |a|, |a[0]|) && Reaches(b, |a|, |a[0]|)
    ensures 0 < |a| && LookupOperator(name).Success? && r.Failure? ==> r.error == IndexError
    ensures r.Success? ==> Rectangular(r.value, |a|, |a[0]|) && CellsWithin(r.value, 0, 255)
    ensures r.Success? ==> forall x, y :: 0 <= x < |a| && 0 <= y < |a[0]| ==>
      r.value[x][y] == Clamp(Apply(LookupOperator(name).value, a[x][y], b[x][y]))
  {
    if |a| == 0 then Failure(IndexError)
    else
      var op :- LookupOperator(name);
      var height, width := |a|, |a[0]|;
      if Covers(a, height, width) && Reaches(b, height, width) then
        Success(seq(height, x requires 0 <= x < height =>
          seq(width, y requires 0 <= y < width => Clamp(Apply(op, a[x][y], b[x][y])))))
      else Failure(IndexError)
  }

  /** `combineNumAndList(num, operator, pixels)`: as `combineLists`, with
      `num` as the LEFT operand of every cell. */
  function CombineNumAndList(num: int, name: string, p: Image): (r: Result<Image, ArithError>)
    ensures |p| == 0 ==> r == Failure(IndexError)
    ensures 0 < |p| && LookupOperator(name).Failure? ==> r == Failure(LookupOperator(name).error)
    ensures r.Success? <==> 0 < |p| && LookupOperator(name).Success? && Covers(p, |p|, |p[0]|)
    ensures 0 < |p| && LookupOperator(name).Success? && r.Failure? ==> r.error == IndexError
    ensures r.Success? ==> Rectangular(r.value, |p|, |p[0]|) && CellsWithin(r.value, 0, 255)
    ensures r.Success? ==> forall x, y :: 0 <= x < |p| && 0 <= y < |p[0]| ==>
      r.value[x][y] == Clamp(Apply(LookupOperator(name).value, num, p[x][y]))
  {
    if |p| == 0 then Failure(IndexError)
    else
      var op :- LookupOperator(name);
      var height, width := |p|, |p[0]|;
      if Covers(p, height, width) then
        Success(seq(height, x requires 0 <= x < height =>
          seq(width, y requires 0 <= y < width => Clamp(Apply(op, num, p[x][y])))))
      else Failure(IndexError)
  }

  /** Cells of `pixelsB` outside `pixelsA`'s rectangle are never read. */
  lemma ExtraCellsIgnored(a: Image, name: string, b: Image, b2: Image)
    requires 0 < |a|
    requires Covers(b, |a|, |a[0]|) && Covers(b2, |a|, |a[0]|)
    requires forall x, y :: 0 <= x < |a| && 0 <= y < |a[0]| ==> b[x][y] == b2[x][y]
    ensures CombineLists(a, name, b) == CombineLists(a, name, b2)
  {
    var r, r2 := CombineLists(a, name, b), CombineLists(a, name, b2);
    assert r.Success? <==> r2.Success?;
    if r.Success? {
      forall x | 0 <= x < |a|
        ensures r.value[x] == r2.value[x]
      {
        assert |r.value[x]| == |r2.value[x]| == |a[0]|;
        forall y | 0 <= y < |a[0]|
          ensures r.value[x][y] == r2.value[x][y]
        {
        }
      }
      assert r.value == r2.value;
    }
  }

  /** `num` is the left operand: with '-' each cell is `num - p`, clamped. */
  lemma NumIsLeftOperand(num: int, p: Image)
    requires 0 < |p| && Covers(p, |p|, |p[0]|)
    ensures CombineNumAndList(num, "-", p).Success?
    ensures forall x, y :: 0 <= x < |p| && 0 <= y < |p[0]| ==>
      CombineNumAndList(num, "-", p).value[x][y] == Clamp(num - p[x][y])
  {
  }

  /** The image of `num * main - (first - second)`, each step saturated:
      the shape of `excessGreen`, `excessBlue` and `excessRed`. */
  function Excess(num: int, main: Image, first: Image, second: Image): (r: Result<Image, ArithError>)
    ensures r.Success? <==>
      && 0 < |main| && Covers(main, |main|, |main[0]|)
      && 0 < |first| && Covers(first, |first|, |first[0]|) && Reaches(second, |first|, |first[0]|)
      && (|main[0]| == 0 || (|main| <= |first| && |main[0]| <= |first[0]|))
    ensures r.Failure? ==> r.error == IndexError
    ensures r.Success? ==> Rectangular(r.value, |main|, |main[0]|) && CellsWithin(r.value, 0, 255)
    ensures r.Success? ==> Reaches(first, |main|, |main[0]|) && Reaches(second, |main|, |main[0]|)
    ensures r.Success? ==> forall x, y :: 0 <= x < |main| && 0 <= y < |main[0]| ==>
      r.value[x][y] == Clamp(Clamp(num * main[x][y]) - Clamp(first[x][y] - second[x][y]))
  {
    var scaled :- CombineNumAndList(num, "*", main);
    var diff :- CombineLists(first, "-", second);
    assert Rectangular(scaled, |main|, |main[0]|) && Rectangular(diff, |first|, |first[0]|);
    assert Reaches(diff, |main|, |main[0]|) <==> |main[0]| == 0 || (|main| <= |first| && |main[0]| <= |first[0]|) by {
      if 0 < |main[0]| && Covers(diff, |main|, |main[0]|) {
        assert |main[0]| <= |diff[0]|;
      }
    }
    CombineLists(scaled, "-", diff)
  }

  /** `excessGreen`: `num * g - (r - b)`. */
  function ExcessGreen(num: int, channels: Channels): (e: Result<Image, ArithError>)
    ensures channels.g == [] ==> e == Failure(IndexError)
    ensures e.Failure? ==> e.error == IndexError
    ensures e.Success? ==> 0 < |channels.g| && Rectangular(e.value, |channels.g|, |channels.g[0]|)
    ensures e.Success? ==> && Covers(channels.g, |channels.g|, |channels.g[0]|)
                           && Reaches(channels.r, |channels.g|, |channels.g[0]|)
                           && Reaches(channels.b, |channels.g|, |channels.g[0]|)
    ensures e.Success? ==> forall x, y :: 0 <= x < |channels.g| && 0 <= y < |channels.g[0]| ==>
      e.value[x][y] == Clamp(Clamp(num * channels.g[x][y]) - Clamp(channels.r[x][y] - channels.b[x][y]))
  {
    Excess(num, channels.g, channels.r, channels.b)
  }

  /** `excessBlue`: `num * b - (g - r)`. */
  function ExcessBlue(num: int, channels: Channels): (e: Result<Image, ArithError>)
    ensures channels.b == [] ==> e == Failure(IndexError)
    ensures e.Failure? ==> e.error == IndexError
    ensures e.Success? ==> 0 < |channels.b| && Rectangular(e.value, |channels.b|, |channels.b[0]|)
    ensures e.Success? ==> && Covers(channels.b, |channels.b|, |channels.b[0]|)
                           && Reaches(channels.g, |channels.b|, |channels.b[0]|)
                           && Reaches(channels.r, |channels.b|, |channels.b[0]|)
    ensures e.Success? ==> forall x, y :: 0 <= x < |channels.b| && 0 <= y < |channels.b[0]| ==>
      e.value[x][y] == Clamp(Clamp(num * channels.b[x][y]) - Clamp(channels.g[x][y] - channels.r[x][y]))
  {
    Excess(num, channels.b, channels.g, channels.r)
  }

  /** `excessRed`: `num * r - (b - g)`. */
  function ExcessRed(num: int, channels: Channels): (e: Result<Image, ArithError>)
    ensures channels.r == [] ==> e == Failure(IndexError)
    ensures e.Failure? ==> e.error == IndexError
    ensures e.Success? ==> 0 < |channels.r| && Rectangular(e.value, |channels.r|, |channels.r[0]|)
    ensures e.Success? ==> && Covers(channels.r, |channels.r|, |channels.r[0]|)
                           && Reaches(channels.b, |channels.r|, |channels.r[0]|)
                           && Reaches(channels.g, |channels.r|, |channels.r[0]|)
    ensures e.Success? ==> forall x, y :: 0 <= x < |channels.r| && 0 <= y < |channels.r[0]| ==>
      e.value[x][y] == Clamp(Clamp(num * channels.r[x][y]) - Clamp(channels.b[x][y] - channels.g[x][y]))
  {
    Excess(num, channels.r, channels.b, channels.g)
  }

  /** On three channels of the same non-empty rectangular shape the excess
      image has that shape and cell (x, y) is
      `clamp(clamp(num * main) - clamp(first - second))`. */
  lemma ExcessCells(num: int, main: Image, first: Image, second: Image, height: nat, width: nat)
    requires 0 < height
    requires Rectangular(main, height, width) && Rectangular(first, height, width) && Rectangular(second, height, width)
    ensures Excess(num, main, first, second).Success?
    ensures Rectangular(Excess(num, main, first, second).value, height, width)
    ensures forall x, y :: 0 <= x < height && 0 <= y < width ==>
      Excess(num, main, first, second).value[x][y] == Clamp(Clamp(num * main[x][y]) - Clamp(first[x][y] - second[x][y]))
  {
    var scaled := CombineNumAndList(num, "*", main);
    var diff := CombineLists(first, "-", second);
    assert |main[0]| == width && |first[0]| == width;
    assert scaled.Success? && diff.Success?;
    var r := CombineLists(scaled.value, "-", diff.value);
    assert |scaled.value[0]| == width;
    assert r.Success?;
  }

  /** An empty main channel fails on its first row. */
  lemma ExcessEmptyMain(num: int, main: Image, first: Image, second: Image)
    requires main == []
    ensures Excess(num, main, first, second) == Failure(IndexError)
  {
  }

  /** `intensity`: `num * ((r + b) + g)`, each step saturated. */
  function Intensity(num: int, channels: Channels): (r: Result<Image, ArithError>)
    ensures channels.r == [] ==> r == Failure(IndexError)
    ensures r.Success? <==>
      && 0 < |channels.r| && Covers(channels.r, |channels.r|, |channels.r[0]|)
      && Reaches(channels.b, |channels.r|, |channels.r[0]|)
      && Reaches(channels.g, |channels.r|, |channels.r[0]|)
    ensures r.Failure? ==> r.error == IndexError
    ensures r.Success? ==> Rectangular(r.value, |channels.r|, |channels.r[0]|) && CellsWithin(r.value, 0, 255)
    ensures r.Success? ==> forall x, y :: 0 <= x < |channels.r| && 0 <= y < |channels.r[0]| ==>
      r.value[x][y] == Clamp(num * Clamp(Clamp(channels.r[x][y] + channels.b[x][y]) + channels.g[x][y]))
  {
    var rbAdd :- CombineLists(channels.r, "+", channels.b);
    var rbAddg :- CombineLists(rbAdd, "+", channels.g);
    CombineNumAndList(num, "*", rbAddg)
  }

  /** On three channels of the same non-empty rectangular shape cell (x, y)
      of the intensity image is `clamp(num * clamp(clamp(r + b) + g))`. */
  lemma IntensityCells(num: int, channels: Channels, height: nat, width: nat)
    requires 0 < height
    requires Rectangular(channels.r, height, width) && Rectangular(channels.g, height, width) && Rectangular(channels.b, height, width)
    ensures Intensity(num, channels).Success?
    ensures Rectangular(Intensity(num, channels).value, height, width)
    ensures forall x, y :: 0 <= x < height && 0 <= y < width ==>
      Intensity(num, channels).value[x][y] ==
        Clamp(num * Clamp(Clamp(channels.r[x][y] + channels.b[x][y]) + channels.g[x][y]))
  {
    var rbAdd := CombineLists(channels.r, "+", channels.b);
    assert |channels.r[0]| == width;
    assert rbAdd.Success?;
    var rbAddg := CombineLists(rbAdd.value, "+", channels.g);
    assert |rbAdd.value[0]| == width;
    assert rbAddg.Success?;
    assert |rbAddg.value[0]| == width;
  }

  /** For channels of non-negative values the saturated steps agree with the
      documented `num * (r + b + g)`, clamped, for every integer `num`. */
  lemma IntensityFormula(num: int, r: int, g: int, b: int)
    requires 0 <= r && 0 <= g && 0 <= b
    ensures Clamp(num * Clamp(Clamp(r + b) + g)) == Clamp(num * (r + b + g))
  {
    var inner := Clamp(Clamp(r + b) + g);
    if r + b + g <= 255 {
      assert inner == r + b + g;
    } else {
      assert inner == 255;
      if num > 0 {
        assert num * inner >= 255;
        assert num * (r + b + g) >= 255;
      } else if num < 0 {
        assert num * inner < 0;
        assert num * (r + b + g) < 0;
      }
    }
  }

  /** As written, the excess image subtracts the saturated difference of the
      two other channels: wherever `first <= second` that difference
      saturates to 0 and neither channel has any effect. */
  lemma ExcessIgnoresSmallDifference(num: int, main: Image, first: Image, second: Image, height: nat, width: nat, x: nat, y: nat)
    requires 0 < height
    requires Rectangular(main, height, width) && Rectangular(first, height, width) && Rectangular(second, height, width)
    requires x < height && y < width && first[x][y] <= second[x][y]
    ensures Excess(num, main, first, second).Success?
    ensures Excess(num, main, first, second).value[x][y] == Clamp(num * main[x][y])
  {
    ExcessCells(num, main, first, second, height, width);
  }

  /** One pixel on which `excessGreen`, `excessBlue` and `excessRed` differ
      from their documented `num*g-r-b`, `num*b-g-r` and `num*r-b-g`. */
  lemma DocumentedExcessFails()
    ensures ExcessGreen(1, Channels([[0]], [[100]], [[10]])) == Success([[100]])
    ensures ExcessBlue(1, Channels([[10]], [[0]], [[100]])) == Success([[100]])
    ensures ExcessRed(1, Channels([[100]], [[10]], [[0]])) == Success([[100]])
  {
    ExcessIgnoresSmallDifference(1, [[100]], [[0]], [[10]], 1, 1, 0, 0);
    var v := Excess(1, [[100]], [[0]], [[10]]).value;
    assert |v| == 1 && |v[0]| == 1;
    assert v[0] == [100];
    assert v == [[100]];
  }

  /** `num * main - first - second` as the combiners would compute it, one
      saturated subtraction per channel, as the script's own
      `combineLists(combineLists(r, '-', b), '-', g)` does. */
  function ExcessIntended(num: int, main: Image, first: Image, second: Image): Result<Image, ArithError>
  {
    var scaled :- CombineNumAndList(num, "*", main);
    var less :- CombineLists(scaled, "-", first);
    CombineLists(less, "-", second)
  }

  function ExcessGreenIntended(num: int, channels: Channels): Result<Image, ArithError>
  {
    ExcessIntended(num, channels.g, channels.r, channels.b)
  }

  function ExcessBlueIntended(num: int, channels: Channels): Result<Image, ArithError>
  {
    ExcessIntended(num, channels.b, channels.g, channels.r)
  }

  function ExcessRedIntended(num: int, channels: Channels): Result<Image, ArithError>
  {
    ExcessIntended(num, channels.r, channels.b, channels.g)
  }

  /** With non-negative channels the sequential subtraction is the documented
      formula on the saturated product: cell (x, y) is
      `clamp(clamp(num * main) - first - second)`. Wherever the product does
      not saturate, `num * main <= 255`, that is the docstring's
      `num * main - first - second`, clamped once. */
  lemma IntendedExcessCells(num: int, main: Image, first: Image, second: Image, height: nat, width: nat)
    requires 0 < height
    requires Rectangular(main, height, width) && Rectangular(first, height, width) && Rectangular(second, height, width)
    requires CellsWithin(first, 0, 255) && CellsWithin(second, 0, 255)
    ensures ExcessIntended(num, main, first, second).Success?
    ensures Rectangular(ExcessIntended(num, main, first, second).value, height, width)
    ensures forall x, y :: 0 <= x < height && 0 <= y < width ==>
      ExcessIntended(num, main, first, second).value[x][y] == Clamp(Clamp(num * main[x][y]) - first[x][y] - second[x][y])
    ensures forall x, y :: 0 <= x < height && 0 <= y < width && num * main[x][y] <= 255 ==>
      ExcessIntended(num, main, first, second).value[x][y] == Clamp(num * main[x][y] - first[x][y] - second[x][y])
  {
    var scaled := CombineNumAndList(num, "*", main);
    assert |main[0]| == width;
    assert scaled.Success?;
    var less := CombineLists(scaled.value, "-", first);
    assert |scaled.value[0]| == width;
    assert less.Success?;
    var r := CombineLists(less.value, "-", second);
    assert |less.value[0]| == width;
    assert r.Success?;
    forall x, y | 0 <= x < height && 0 <= y < width
      ensures r.value[x][y] == Clamp(Clamp(num * main[x][y]) - first[x][y] - second[x][y])
      ensures num * main[x][y] <= 255 ==> r.value[x][y] == Clamp(num * main[x][y] - first[x][y] - second[x][y])
    {
      SequentialSubtraction(Clamp(num * main[x][y]), first[x][y], second[x][y]);
      if num * main[x][y] <= 255 {
        UnsaturatedProduct(num * main[x][y], first[x][y], second[x][y]);
      }
    }
  }

  /** Below the upper bound, saturating the product first changes nothing
      once the non-negative channels are subtracted. */
  lemma UnsaturatedProduct(p: int, f: int, s: int)
    requires p <= 255 && 0 <= f && 0 <= s
    ensures Clamp(Clamp(p) - f - s) == Clamp(p - f - s)
  {
  }

  lemma SequentialSubtraction(m: int, f: int, s: int)
    requires m <= 255 && 0 <= f && 0 <= s
    ensures Clamp(Clamp(m - f) - s) == Clamp(m - f - s)
  {
  }

  /** The corrected excess-green image on the pixel of
      `DocumentedExcessFails` is the documented 90. */
  lemma IntendedExcessExample()
    ensures ExcessGreenIntended(1, Channels([[0]], [[100]], [[10]])) == Success([[90]])
  {
    IntendedExcessCells(1, [[100]], [[0]], [[10]], 1, 1);
    var v := ExcessIntended(1, [[100]], [[0]], [[10]]).value;
    assert v[0][0] == 90;
    assert v[0] == [90];
    assert v == [[90]];
  }

  /** Which channel each excess image scales and which two it subtracts. */
  lemma ExcessChannelCells(num: int, channels: Channels, height: nat, width: nat)
    requires 0 < height
    requires Rectangular(channels.r, height, width) && Rectangular(channels.g, height, width) && Rectangular(channels.b, height, width)
    ensures ExcessGreen(num, channels).Success? && ExcessBlue(num, channels).Success? && ExcessRed(num, channels).Success?
    ensures forall x, y :: 0 <= x < height && 0 <= y < width ==>
      var (r, g, b) := (channels.r[x][y], channels.g[x][y], channels.b[x][y]);
      && ExcessGreen(num, channels).value[x][y] == Clamp(Clamp(num * g) - Clamp(r - b))
      && ExcessBlue(num, channels).value[x][y] == Clamp(Clamp(num * b) - Clamp(g - r))
      && ExcessRed(num, channels).value[x][y] == Clamp(Clamp(num * r) - Clamp(b - g))
  {
    ExcessCells(num, channels.g, channels.r, channels.b, height, width);
    ExcessCells(num, channels.b, channels.g, channels.r, height, width);
    ExcessCells(num, channels.r, channels.b, channels.g, height, width);
  }
}

=== FILE: histogram.dfy ===
/** Gray-level histograms and the equalization remap (`createHistogram`,
    `mapHistogram`, `mapColor` and the `histogram.index(k)` lookups). Python
    list indexing is modelled exactly: a negative index counts from the end
    and anything else out of range raises. */
module Histogram {
  import opened Results
  import opened Raster
  import opened PyText

  datatype LookupError =
    | IndexError  // a list index out of range
    | ValueError  // `list.index(k)` finds no entry equal to k

  /** The number of entries of `s` equal to `v`. */
  function Occ(s: seq<int>, v: int): (n: nat)
    ensures n <= |s|
  {
    if s == [] then 0 else (if s[0] == v then 1 else 0) + Occ(s[1..], v)
  }

  /** No occurrence means no entry equal to v. */
  lemma {:induction false} OccZero(s: seq<int>, v: int)
    ensures Occ(s, v) == 0 <==> forall i :: 0 <= i < |s| ==> s[i] != v
  {
    if s != [] {
      OccZero(s[1..], v);
      assert forall i :: 1 <= i < |s| ==> s[i] == s[1..][i - 1];
    }
  }

  /** `[0] * n`, which is empty for n <= 0. */
  function Zeros(n: int): (z: seq<int>)
    ensures |z| == (if n < 0 then 0 else n)
    ensures forall i :: 0 <= i < |z| ==> z[i] == 0
  {
    seq(if n < 0 then 0 else n, _ => 0)
  }

  lemma {:induction false} SumZeros(n: nat)
    ensures Sum(Zeros(n)) == 0
  {
    if n > 0 {
      assert Zeros(n)[..n - 1] == Zeros(n - 1);
      SumZeros(n - 1);
    }
  }

  /** Adding `d` to one entry adds `d` to the sum. */
  lemma {:induction false} SumUpdate(h: seq<int>, p: nat, d: int)
    requires p < |h|
    ensures Sum(h[p := h[p] + d]) == Sum(h) + d
  {
    var g := h[p := h[p] + d];
    var n := |h|;
    if p == n - 1 {
      assert g[..n - 1] == h[..n - 1];
    } else {
      assert g[..n - 1] == h[..n - 1][p := h[p] + d];
      SumUpdate(h[..n - 1], p, d);
    }
  }

  /** The counting loop `for pixel in ...: histogram[pixel] += 1` over the
      pixels `s`, in order, starting from the bins `h`. Bin v collects the
      pixels equal to v and, through Python's negative indexing, those equal
      to v - |h|; the first pixel that is no valid index raises. */
  function Tally(s: seq<int>, h: seq<int>): (r: Result<seq<int>, LookupError>)
    ensures r.Success? <==> forall i :: 0 <= i < |s| ==> ValidIndex(s[i], |h|)
    ensures r.Failure? ==> r.error == IndexError
    ensures r.Success? ==> |r.value| == |h| && Sum(r.value) == Sum(h) + |s|
    ensures r.Success? ==> forall v :: 0 <= v < |h| ==> r.value[v] == h[v] + Occ(s, v) + Occ(s, v - |h|)
    decreases |s|
  {
    if s == [] then Success(h)
    else if !ValidIndex(s[0], |h|) then Failure(IndexError)
    else
      var p := Position(s[0], |h|);
      SumUpdate(h, p, 1);
      var r := Tally(s[1..], h[p := h[p] + 1]);
      assert r.Success? ==> forall i :: 0 <= i < |s| ==> ValidIndex(s[i], |h|) by {
        if r.Success? {
          forall i | 0 <= i < |s| ensures ValidIndex(s[i], |h|) {
            if i > 0 {
              assert s[i] == s[1..][i - 1];
            }
          }
        }
      }
      r
  }

  /** `createHistogram(pixels, maxGrayLevel)`: `maxGrayLevel + 1` zero bins,
      then one increment per pixel in row-major order. */
  function CreateHistogram(pixels: Image, maxGray: int): (r: Result<seq<int>, LookupError>)
    ensures r.Success? ==> |r.value| == (if maxGray + 1 < 0 then 0 else maxGray + 1)
    ensures r.Failure? ==> r.error == IndexError
  {
    Tally(Flatten(pixels), Zeros(maxGray + 1))
  }

  /** The histogram exists exactly when every pixel is a valid bin index,
      which for pixels in 0..maxGray always holds. */
  lemma HistogramDefined(pixels: Image, maxGray: int)
    ensures CreateHistogram(pixels, maxGray).Success? <==>
      forall i :: 0 <= i < |Flatten(pixels)| ==> ValidIndex(Flatten(pixels)[i], maxGray + 1)
  {
    TallyFromZeros(Flatten(pixels), maxGray + 1);
    assert CreateHistogram(pixels, maxGray) == Tally(Flatten(pixels), Zeros(maxGray + 1));
    assert Tally(Flatten(pixels), Zeros(maxGray + 1)).Success? <==> forall i :: 0 <= i < |Flatten(pixels)| ==> ValidIndex(Flatten(pixels)[i], maxGray + 1);
  }

  lemma TallyFromZeros(s: seq<int>, n: int)
    ensures Tally(s, Zeros(n)).Success? <==> forall i :: 0 <= i < |s| ==> ValidIndex(s[i], n)
  {
    var bins := Zeros(n);
    if Tally(s, bins).Success? {
      forall i | 0 <= i < |s| ensures ValidIndex(s[i], n) {
        assert ValidIndex(s[i], |bins|);
      }
    } else {
      var i :| 0 <= i < |s| && !ValidIndex(s[i], |bins|);
      assert !ValidIndex(s[i], n);
    }
  }

  /** The bin count of `[0] * (maxGrayLevel + 1)`. */
  function BinCount(maxGray: int): nat
  {
    if maxGray + 1 < 0 then 0 else maxGray + 1
  }

  /** Reference definition of the mass a remap moves into bin `v`: the sum
      of `hin[i]` over the levels i < k whose target `eq[i]` denotes bin v
      among `n` bins. */
  function Inflow(hin: seq<int>, eq: seq<int>, n: nat, k: nat, v: nat): int
    requires k <= |hin| && k <= |eq|
  {
    if k == 0 then 0
    else Inflow(hin, eq, n, k - 1, v)
         + (if ValidIndex(eq[k - 1], n) && Position(eq[k - 1], n) == v then hin[k - 1] else 0)
  }

  /** The first k iterations of `outputHistogram[equalization[i]] +=
      inputHistogram[i]` over `n` zero bins. Every index is a Python list
      index; the first one out of range raises. */
  function Redistribute(hin: seq<int>, eq: seq<int>, n: nat, k: nat): (r: Result<seq<int>, LookupError>)
    ensures r.Success? <==> k <= |hin| && k <= |eq| && forall i :: 0 <= i < k ==> ValidIndex(eq[i], n)
    ensures r.Failure? ==> r.error == IndexError
    ensures r.Success? ==> |r.value| == n
    ensures r.Success? ==> Sum(r.value) == Sum(hin[..k])
    ensures r.Success? ==> forall v :: 0 <= v < n ==> r.value[v] == Inflow(hin, eq, n, k, v)
  {
    if k == 0 then
      SumZeros(n);
      assert hin[..0] == [];
      Success(Zeros(n))
    else
      var prev :- Redistribute(hin, eq, n, k - 1);
      if k - 1 >= |eq| || !ValidIndex(eq[k - 1], n) || k - 1 >= |hin| then Failure(IndexError)
      else
        var p := Position(eq[k - 1], n);
        SumUpdate(prev, p, hin[k - 1]);
        assert hin[..k][..k - 1] == hin[..k - 1];
        Success(prev[p := prev[p] + hin[k - 1]])
  }

  /** `mapHistogram(inputHistogram, equalization, maxGrayLevel)`: the loop
      runs over `range(maxGrayLevel)`, so level `maxGrayLevel` itself is
      never moved. */
  function MapHistogram(hin: seq<int>, eq: seq<int>, maxGray: int): (r: Result<seq<int>, LookupError>)
    ensures r.Success? <==>
      maxGray <= |hin| && maxGray <= |eq| && forall i :: 0 <= i < maxGray ==> ValidIndex(eq[i], BinCount(maxGray))
    ensures r.Failure? ==> r.error == IndexError
    ensures r.Success? ==> |r.value| == BinCount(maxGray)
    ensures r.Success? ==> forall v :: 0 <= v < |r.value| ==>
      r.value[v] == Inflow(hin, eq, |r.value|, if maxGray < 0 then 0 else maxGray, v)
  {
    Redistribute(hin, eq, BinCount(maxGray), if maxGray < 0 then 0 else maxGray)
  }

  /** The remap with the loop bound corrected to `range(maxGrayLevel + 1)`,
      so every level is moved and a histogram of `maxGrayLevel + 1` bins
      keeps its total mass. */
  function MapHistogramAll(hin: seq<int>, eq: seq<int>, maxGray: int): (r: Result<seq<int>, LookupError>)
    ensures r.Success? <==>
      BinCount(maxGray) <= |hin| && BinCount(maxGray) <= |eq| &&
      forall i :: 0 <= i < BinCount(maxGray) ==> ValidIndex(eq[i], BinCount(maxGray))
    ensures r.Failure? ==> r.error == IndexError
    ensures r.Success? ==> |r.value| == BinCount(maxGray)
    ensures r.Success? && |hin| == BinCount(maxGray) ==> Sum(r.value) == Sum(hin)
  {
    assert hin[..|hin|] == hin;
    Redistribute(hin, eq, BinCount(maxGray), BinCount(maxGray))
  }

  /** The as-written remap loses the top level's pixels: the output mass is
      the input mass minus `hin[maxGray]`. */
  lemma TopBinDropped(hin: seq<int>, eq: seq<int>, maxGray: nat)
    requires |hin| == maxGray + 1
    requires MapHistogram(hin, eq, maxGray).Success?
    ensures Sum(MapHistogram(hin, eq, maxGray).value) == Sum(hin) - hin[maxGray]
  {
    assert hin[..maxGray] == hin[..|hin| - 1];
  }

  /** The two loops differ by exactly the last iteration: the corrected
      output is the as-written one with `hin[maxGray]` added at the bin
      `eq[maxGray]` denotes. */
  lemma TopBinOnly(hin: seq<int>, eq: seq<int>, maxGray: nat)
    requires MapHistogramAll(hin, eq, maxGray).Success?
    ensures MapHistogram(hin, eq, maxGray).Success?
    ensures ValidIndex(eq[maxGray], maxGray + 1)
    ensures var out := MapHistogram(hin, eq, maxGray).value;
      var p := Position(eq[maxGray], maxGray + 1);
      MapHistogramAll(hin, eq, maxGray).value == out[p := out[p] + hin[maxGray]]
  {
  }

  /** One gray level, one pixel at the top level 1, identity equalization:
      the as-written remap reports no pixel at all, the corrected one
      reports it at level 1. */
  lemma TopLevelLost()
    ensures MapHistogram([0, 1], [0, 1], 1) == Success([0, 0])
    ensures MapHistogramAll([0, 1], [0, 1], 1) == Success([0, 1])
  {
    var hin, eq := [0, 1], [0, 1];
    assert Zeros(2) == [0, 0];
    assert Redistribute(hin, eq, 2, 0) == Success([0, 0]);
    assert Position(eq[0], 2) == 0 && hin[0] == 0;
    assert Redistribute(hin, eq, 2, 1) == Success([0, 0][0 := 0 + 0]);
    assert [0, 0][0 := 0 + 0] == [0, 0];
    assert BinCount(1) == 2;
    assert Position(eq[1], 2) == 1 && hin[1] == 1;
    assert Redistribute(hin, eq, 2, 2) == Success([0, 0][1 := 0 + 1]);
    assert [0, 0][1 := 0 + 1] == [0, 1];
  }

  /** Every cell the `mapColor` loop nest visits exists and is a valid index
      into an equalization table of `n` entries. */
  predicate Mappable(pixels: Image, width: int, height: int, n: int)
  {
    && Reaches(pixels, height, width)
    && forall x, y :: 0 <= x < height && 0 <= y < width ==> ValidIndex(pixels[x][y], n)
  }

  /** `out` has the shape of `pixels`; inside the `height` x `width` loop
      region each cell is the equalization entry of the old cell, and
      outside it every cell is kept. */
  predicate Remapped(pixels: Image, out: Image, width: int, height: int, eq: seq<int>)
  {
    && |out| == |pixels|
    && (forall x :: 0 <= x < |out| ==> |out[x]| == |pixels[x]|)
    && forall x, y :: 0 <= x < |out| && 0 <= y < |out[x]| ==>
         if x < height && y < width then
           ValidIndex(pixels[x][y], |eq|) && out[x][y] == eq[Position(pixels[x][y], |eq|)]
         else out[x][y] == pixels[x][y]
  }

  /** `mapColor(pixels, width, height, equalization)`: the in-place
      `pixels[x][y] = equalization[pixels[x][y]]` over the loop nest, with the
      updated image as the result. */
  method MapColor(pixels: Image, width: int, height: int, eq: seq<int>) returns (r: Result<Image, LookupError>)
    ensures r.Success? <==> Mappable(pixels, width, height, |eq|)
    ensures r.Failure? ==> r.error == IndexError
    ensures r.Success? ==> Remapped(pixels, r.value, width, height, eq)
  {
    var rows := if height < 0 then 0 else height;
    var img := pixels;
    var x := 0;
    while x < rows
      invariant 0 <= x <= rows
      invariant Mappable(pixels, width, x, |eq|)
      invariant Remapped(pixels, img, width, x, eq)
    {
      if width > 0 {
        if x >= |img| {
          return Failure(IndexError);
        }
        var row := img[x];
        assert row == pixels[x];
        var y := 0;
        while y < width
          invariant 0 <= y <= width && y <= |row|
          invariant x < |pixels| && |row| == |pixels[x]|
          invariant forall j :: 0 <= j < y ==> ValidIndex(pixels[x][j], |eq|)
          invariant forall j :: 0 <= j < |row| ==>
            row[j] == if j < y then eq[Position(pixels[x][j], |eq|)] else pixels[x][j]
        {
          if y >= |row| || !ValidIndex(row[y], |eq|) {
            return Failure(IndexError);
          }
          row := row[y := eq[Position(row[y], |eq|)]];
          y := y + 1;
        }
        img := img[x := row];
      }
      x := x + 1;
    }
    return Success(img);
  }

  /** With every pixel in 0..maxGray the histogram exists, has one bin per
      level, bin v counts the pixels equal to v, and the bins add up to the
      number of pixels. */
  lemma HistogramCounts(pixels: Image, maxGray: int)
    requires CellsWithin(pixels, 0, maxGray)
    ensures CreateHistogram(pixels, maxGray).Success?
    ensures |CreateHistogram(pixels, maxGray).value| == BinCount(maxGray)
    ensures forall v :: 0 <= v < BinCount(maxGray) ==>
      CreateHistogram(pixels, maxGray).value[v] == Occ(Flatten(pixels), v)
    ensures Sum(CreateHistogram(pixels, maxGray).value) == |Flatten(pixels)|
  {
    var s := Flatten(pixels);
    var n := BinCount(maxGray);
    FlattenWithin(pixels, 0, maxGray);
    HistogramDefined(pixels, maxGray);
    assert forall i :: 0 <= i < |s| ==> ValidIndex(s[i], maxGray + 1);
    SumZeros(n);
    forall v | 0 <= v < n
      ensures CreateHistogram(pixels, maxGray).value[v] == Occ(s, v)
    {
      OccZero(s, v - n);
    }
  }

  /** With every pixel in 0..maxGray the histogram is the occurrence count
      of each level. */
  lemma HistogramIsCounts(pixels: Image, maxGray: int)
    requires CellsWithin(pixels, 0, maxGray)
    ensures CreateHistogram(pixels, maxGray) == Success(Counts(Flatten(pixels), BinCount(maxGray)))
  {
    HistogramCounts(pixels, maxGray);
    assert CreateHistogram(pixels, maxGray).value == Counts(Flatten(pixels), BinCount(maxGray));
  }

  /** A complete `height` x `width` image has `width * height` pixels in its
      histogram. */
  lemma CompleteHistogramSum(pixels: Image, height: nat, width: nat, maxGray: int)
    requires Rectangular(pixels, height, width) && CellsWithin(pixels, 0, maxGray)
    ensures CreateHistogram(pixels, maxGray).Success?
    ensures Sum(CreateHistogram(pixels, maxGray).value) == width * height
  {
    HistogramCounts(pixels, maxGray);
    FlattenLength(pixels, height, width);
  }

  /** A pixel brighter than `maxGrayLevel` indexes past the last bin. */
  lemma AboveMaxGrayFails(pixels: Image, maxGray: int, x: nat, y: nat)
    requires x < |pixels| && y < |pixels[x]| && pixels[x][y] > maxGray
    ensures CreateHistogram(pixels, maxGray) == Failure(IndexError)
  {
    HistogramDefined(pixels, maxGray);
    FlattenCell(pixels, x, y);
  }

  /** Cell (x, y) appears in the row-major flattening. */
  lemma {:induction false} FlattenCell(img: Image, x: nat, y: nat)
    requires x < |img| && y < |img[x]|
    ensures exists i :: 0 <= i < |Flatten(img)| && Flatten(img)[i] == img[x][y]
  {
    var flat := Flatten(img);
    assert flat == img[0] + Flatten(img[1..]);
    if x == 0 {
      assert flat[y] == img[0][y];
    } else {
      FlattenCell(img[1..], x - 1, y);
      var i :| 0 <= i < |Flatten(img[1..])| && Flatten(img[1..])[i] == img[1..][x - 1][y];
      assert flat[|img[0]| + i] == img[x][y];
    }
  }

  /** `eq[p]` for every entry p of `s`. */
  function Lookup(s: seq<int>, eq: seq<int>): (t: seq<int>)
    requires AllWithin(s, 0, |eq| - 1)
    ensures |t| == |s|
  {
    seq(|s|, i requires 0 <= i < |s| => eq[s[i]])
  }

  /** The occurrence count of each level below n. */
  function Counts(s: seq<int>, n: nat): (c: seq<int>)
    ensures |c| == n
  {
    seq(n, g requires 0 <= g < n => Occ(s, g))
  }

  lemma {:induction false} InflowZeros(eq: seq<int>, n: nat, k: nat, v: nat)
    requires k <= n && k <= |eq|
    ensures Inflow(Zeros(n), eq, n, k, v) == 0
  {
    if k > 0 {
      InflowZeros(eq, n, k - 1, v);
    }
  }

  /** One more pixel at level a adds one to the bin level a moves to. */
  lemma {:induction false} InflowUpdate(h: seq<int>, bumped: seq<int>, eq: seq<int>, n: nat, k: nat, v: nat, a: nat)
    requires a < |h| && k <= |h| && k <= |eq| && bumped == h[a := h[a] + 1]
    ensures Inflow(bumped, eq, n, k, v) ==
      Inflow(h, eq, n, k, v) + (if a < k && ValidIndex(eq[a], n) && Position(eq[a], n) == v then 1 else 0)
  {
    if k > 0 {
      InflowUpdate(h, bumped, eq, n, k - 1, v, a);
    }
  }

  /** Counting the looked-up levels equal to v is counting, per source
      level, the pixels whose table entry is v. */
  lemma {:induction false} OccLookup(s: seq<int>, eq: seq<int>, v: nat)
    requires AllWithin(s, 0, |eq| - 1)
    requires forall g :: 0 <= g < |eq| ==> 0 <= eq[g] < |eq|
    ensures Occ(Lookup(s, eq), v) == Inflow(Counts(s, |eq|), eq, |eq|, |eq|, v)
  {
    var n := |eq|;
    if s == [] {
      CountsEmpty(s, n);
      InflowZeros(eq, n, n, v);
    } else {
      var a, t := s[0], s[1..];
      LookupCons(s, eq);
      OccLookup(t, eq, v);
      var c := Counts(t, n);
      CountsCons(s, n);
      InflowUpdate(c, Counts(s, n), eq, n, n, v, a);
    }
  }

  lemma LookupCons(s: seq<int>, eq: seq<int>)
    requires AllWithin(s, 0, |eq| - 1) && s != []
    ensures AllWithin(s[1..], 0, |eq| - 1)
    ensures Occ(Lookup(s, eq), eq[s[0]]) == 1 + Occ(Lookup(s[1..], eq), eq[s[0]])
    ensures forall v :: v != eq[s[0]] ==> Occ(Lookup(s, eq), v) == Occ(Lookup(s[1..], eq), v)
  {
    var t := s[1..];
    assert AllWithin(t, 0, |eq| - 1) by {
      forall i | 0 <= i < |t| ensures 0 <= t[i] <= |eq| - 1 {
        assert t[i] == s[i + 1];
      }
    }
    assert Lookup(s, eq)[1..] == Lookup(t, eq);
  }

  lemma CountsEmpty(s: seq<int>, n: nat)
    requires s == []
    ensures Counts(s, n) == Zeros(n)
  {
  }

  lemma CountsCons(s: seq<int>, n: nat)
    requires s != [] && 0 <= s[0] < n
    ensures Counts(s, n) == Counts(s[1..], n)[s[0] := Counts(s[1..], n)[s[0]] + 1]
  {
  }

  /** The flattening of a remapped complete image is the flattening of the
      original looked up in the table. */
  lemma {:induction false} FlattenRemapped(pixels: Image, out: Image, height: nat, width: nat, eq: seq<int>)
    requires Rectangular(pixels, height, width) && CellsWithin(pixels, 0, |eq| - 1)
    requires Remapped(pixels, out, width, height, eq)
    ensures AllWithin(Flatten(pixels), 0, |eq| - 1)
    ensures Flatten(out) == Lookup(Flatten(pixels), eq)
  {
    FlattenWithin(pixels, 0, |eq| - 1);
    if height > 0 {
      var tail, rest := pixels[1..], out[1..];
      RemappedRows(pixels, out, height, width, eq);
      FlattenRemapped(tail, rest, height - 1, width, eq);
      assert Flatten(out) == out[0] + Flatten(rest);
      assert Flatten(pixels) == pixels[0] + Flatten(tail);
      LookupConcat(pixels[0], Flatten(tail), eq);
    }
  }

  /** A remapped image splits into its remapped first row and its remapped
      remaining rows. */
  lemma RemappedRows(pixels: Image, out: Image, height: nat, width: nat, eq: seq<int>)
    requires Rectangular(pixels, height, width) && CellsWithin(pixels, 0, |eq| - 1)
    requires Remapped(pixels, out, width, height, eq) && height > 0
    ensures AllWithin(pixels[0], 0, |eq| - 1)
    ensures out[0] == Lookup(pixels[0], eq)
    ensures Rectangular(pixels[1..], height - 1, width) && CellsWithin(pixels[1..], 0, |eq| - 1)
    ensures Remapped(pixels[1..], out[1..], width, height - 1, eq)
  {
    var tail, rest := pixels[1..], out[1..];
    assert AllWithin(pixels[0], 0, |eq| - 1) by {
      forall y | 0 <= y < |pixels[0]| ensures 0 <= pixels[0][y] <= |eq| - 1 {
        assert 0 <= pixels[0][y] <= |eq| - 1;
      }
    }
    assert Rectangular(tail, height - 1, width);
    assert CellsWithin(tail, 0, |eq| - 1) by {
      forall x, y | 0 <= x < |tail| && 0 <= y < |tail[x]| ensures 0 <= tail[x][y] <= |eq| - 1 {
        assert tail[x] == pixels[x + 1];
      }
    }
    assert Remapped(tail, rest, width, height - 1, eq) by {
      forall x, y | 0 <= x < |rest| && 0 <= y < |rest[x]|
        ensures rest[x][y] == eq[Position(tail[x][y], |eq|)]
      {
        assert rest[x] == out[x + 1] && tail[x] == pixels[x + 1];
      }
    }
  }

  lemma LookupConcat(a: seq<int>, b: seq<int>, eq: seq<int>)
    requires AllWithin(a, 0, |eq| - 1) && AllWithin(b, 0, |eq| - 1)
    ensures AllWithin(a + b, 0, |eq| - 1)
    ensures Lookup(a + b, eq) == Lookup(a, eq) + Lookup(b, eq)
  {
    ConcatWithin(a, b, 0, |eq| - 1);
  }

  /** Remapping the counts of `s` with the corrected loop gives the counts
      of the looked-up sequence. */
  lemma RemapCounts(s: seq<int>, eq: seq<int>, maxGray: nat)
    requires |eq| == maxGray + 1 && forall g :: 0 <= g < |eq| ==> 0 <= eq[g] <= maxGray
    requires AllWithin(s, 0, maxGray)
    ensures MapHistogramAll(Counts(s, maxGray + 1), eq, maxGray) == Success(Counts(Lookup(s, eq), maxGray + 1))
  {
    var n := maxGray + 1;
    var r := MapHistogramAll(Counts(s, n), eq, maxGray);
    assert r.Success?;
    forall v | 0 <= v < n ensures r.value[v] == Counts(Lookup(s, eq), n)[v] {
      OccLookup(s, eq, v);
    }
    assert r.value == Counts(Lookup(s, eq), n);
  }

  /** Equalization theorem: remapping a complete image through a table with
      entries in 0..maxGray gives the histogram the corrected remap predicts
      from the input histogram. */
  lemma EqualizedHistogram(pixels: Image, out: Image, height: nat, width: nat, maxGray: nat, eq: seq<int>)
    requires Rectangular(pixels, height, width) && CellsWithin(pixels, 0, maxGray)
    requires |eq| == maxGray + 1 && forall g :: 0 <= g < |eq| ==> 0 <= eq[g] <= maxGray
    requires Remapped(pixels, out, width, height, eq)
    ensures CreateHistogram(pixels, maxGray).Success?
    ensures CreateHistogram(out, maxGray) == MapHistogramAll(CreateHistogram(pixels, maxGray).value, eq, maxGray)
  {
    var n := maxGray + 1;
    HistogramIsCounts(pixels, maxGray);
    FlattenRemapped(pixels, out, height, width, eq);
    FlattenWithin(out, 0, maxGray);
    HistogramIsCounts(out, maxGray);
    RemapCounts(Flatten(pixels), eq, maxGray);
  }
  /** The as-written `mapHistogram` predicts the equalized histogram except
      for the top level, whose pixels it never moves to `eq[maxGray]`. */
  lemma EqualizedHistogramAsWritten(pixels: Image, out: Image, height: nat, width: nat, maxGray: nat, eq: seq<int>)
    requires Rectangular(pixels, height, width) && CellsWithin(pixels, 0, maxGray)
    requires |eq| == maxGray + 1 && forall g :: 0 <= g < |eq| ==> 0 <= eq[g] <= maxGray
    requires Remapped(pixels, out, width, height, eq)
    ensures CreateHistogram(pixels, maxGray).Success?
    ensures MapHistogram(CreateHistogram(pixels, maxGray).value, eq, maxGray).Success?
    ensures var hin := CreateHistogram(pixels, maxGray).value;
      var predicted := MapHistogram(hin, eq, maxGray).value;
      CreateHistogram(out, maxGray) == Success(predicted[eq[maxGray] := predicted[eq[maxGray]] + hin[maxGray]])
  {
    EqualizedHistogram(pixels, out, height, width, maxGray, eq);
    var hin := CreateHistogram(pixels, maxGray).value;
    TopBinOnly(hin, eq, maxGray);
    assert Position(eq[maxGray], maxGray + 1) == eq[maxGray];
  }

  /** `h.index(k)`: the first position holding k; ValueError when none does. */
  function IndexOf(h: seq<int>, k: int): (r: Result<nat, LookupError>)
    ensures r.Success? ==> r.value < |h| && h[r.value] == k && forall j :: 0 <= j < r.value ==> h[j] != k
    ensures r.Failure? <==> forall i :: 0 <= i < |h| ==> h[i] != k
    ensures r.Failure? ==> r.error == ValueError
  {
    if h == [] then Failure(ValueError)
    else if h[0] == k then Success(0)
    else
      var i :- IndexOf(h[1..], k);
      Success(i + 1)
  }

  /** The bin lookups of the histogram script: `histogram.index(k)` is the
      lowest gray level with exactly k pixels, and fails when no level has
      that count. */
  lemma HistogramIndex(pixels: Image, maxGray: int, k: int)
    requires CellsWithin(pixels, 0, maxGray)
    ensures CreateHistogram(pixels, maxGray).Success?
    ensures var r := IndexOf(CreateHistogram(pixels, maxGray).value, k);
      && (r.Success? ==>
            && r.value <= maxGray
            && Occ(Flatten(pixels), r.value) == k
            && forall g :: 0 <= g < r.value ==> Occ(Flatten(pixels), g) != k)
      && (r.Failure? <==> forall g :: 0 <= g <= maxGray ==> Occ(Flatten(pixels), g) != k)
  {
    HistogramIsCounts(pixels, maxGray);
  }
}

=== FILE: moments.dfy ===
/** Raw image moments (`pqMoment`) and the division guard of
    `centralMoments`. Row index x and column index y weight the cell
    `pixels[x][y]` by `x**p * y**q`. */
module Moments {
  import opened Results
  import opened Raster

  datatype MomentError =
    | IndexError         // the loop nest reads a cell the image lacks
    | ZeroDivisionError  // the centroid divides by a zero `m00`

  /** `b ** e` for a nonnegative exponent; `0 ** 0` is 1 as in Python. */
  function Pow(b: int, e: nat): int
  {
    if e == 0 then 1 else b * Pow(b, e - 1)
  }

  /** Reference definition: the weighted sum over columns y < width of one
      row, the row being row x of the image. */
  function RowMoment(row: seq<int>, x: int, p: nat, q: nat, width: int): int
    requires width <= |row|
  {
    if width <= 0 then 0
    else RowMoment(row, x, p, q, width - 1) + Pow(x, p) * Pow(width - 1, q) * row[width - 1]
  }

  /** Reference definition: the double sum of `x**p * y**q * pixels[x][y]`
      over rows x < height and columns y < width. */
  function Moment(pixels: Image, p: nat, q: nat, width: int, height: int): int
    requires Reaches(pixels, height, width)
  {
    if height <= 0 || width <= 0 then 0
    else Moment(pixels, p, q, width, height - 1) + RowMoment(pixels[height - 1], height - 1, p, q, width)
  }

  /** `pqMoment(pixels, p, q, width, height)`: the accumulating loop nest.
      With non-negative exponents it raises exactly when a visited cell is
      missing, and otherwise returns the double sum. A negative exponent
      raises ZeroDivisionError at the first cell, where `0 ** p` or
      `0 ** q` is evaluated before the pixel is read; with no cell to visit
      the result is 0. */
  method PqMoment(pixels: Image, p: int, q: int, width: int, height: int) returns (r: Result<int, MomentError>)
    ensures (p < 0 || q < 0) && 0 < height && 0 < width ==> r == Failure(ZeroDivisionError)
    ensures (p < 0 || q < 0) && (height <= 0 || width <= 0) ==> r == Success(0)
    ensures 0 <= p && 0 <= q ==> (r.Success? <==> Reaches(pixels, height, width))
    ensures 0 <= p && 0 <= q && r.Failure? ==> r.error == IndexError
    ensures 0 <= p && 0 <= q && r.Success? ==> r.value == Moment(pixels, p, q, width, height)
  {
    var rows := if height < 0 then 0 else height;
    var moment := 0;
    var x := 0;
    while x < rows
      invariant 0 <= x <= rows
      invariant Reaches(pixels, x, width)
      invariant 0 <= p && 0 <= q ==> moment == Moment(pixels, p, q, width, x)
      invariant p < 0 || q < 0 ==> moment == 0 && (width <= 0 || x == 0)
    {
      if width > 0 {
        if p < 0 || q < 0 {
          return Failure(ZeroDivisionError);
        }
        if x >= |pixels| {
          return Failure(IndexError);
        }
        var y := 0;
        while y < width
          invariant 0 <= y <= width && y <= |pixels[x]|
          invariant moment == Moment(pixels, p, q, width, x) + RowMoment(pixels[x], x, p, q, y)
        {
          if y >= |pixels[x]| {
            return Failure(IndexError);
          }
          moment := moment + Pow(x, p) * Pow(y, q) * pixels[x][y];
          y := y + 1;
        }
      }
      x := x + 1;
    }
    return Success(moment);
  }

  /** Every cell of the loop region exists and is nonnegative. */
  predicate NonNegativeRegion(pixels: Image, width: int, height: int)
  {
    && Reaches(pixels, height, width)
    && forall x, y :: 0 <= x < height && 0 <= y < width ==> 0 <= pixels[x][y]
  }

  lemma {:induction false} PowNonNegative(b: nat, e: nat)
    ensures Pow(b, e) >= 0
  {
    if e > 0 {
      PowNonNegative(b, e - 1);
    }
  }

  /** `0 ** e` vanishes for a positive exponent. */
  lemma PowZero(e: nat)
    requires e >= 1
    ensures Pow(0, e) == 0
  {
  }

  lemma Weight(a: int, b: int, c: int)
    requires a >= 0 && b >= 0 && c >= 0
    ensures a * b * c >= 0
  {
  }

  /** With nonnegative pixels every moment is nonnegative. */
  lemma {:induction false} MomentNonNegative(pixels: Image, p: nat, q: nat, width: int, height: int)
    requires NonNegativeRegion(pixels, width, height)
    ensures Moment(pixels, p, q, width, height) >= 0
  {
    if height > 0 && width > 0 {
      MomentNonNegative(pixels, p, q, width, height - 1);
      RowNonNegative(pixels, height - 1, p, q, width);
    }
  }

  lemma {:induction false} RowNonNegative(pixels: Image, x: nat, p: nat, q: nat, k: nat)
    requires x < |pixels| && k <= |pixels[x]|
    requires forall y :: 0 <= y < k ==> 0 <= pixels[x][y]
    ensures RowMoment(pixels[x], x, p, q, k) >= 0
  {
    if k > 0 {
      RowNonNegative(pixels, x, p, q, k - 1);
      PowNonNegative(x, p);
      PowNonNegative(k - 1, q);
      Weight(Pow(x, p), Pow(k - 1, q), pixels[x][k - 1]);
    }
  }

  /** Rows whose visited cells agree have the same row moment. */
  lemma {:induction false} RowAgree(a: seq<int>, b: seq<int>, x: int, p: nat, q: nat, k: int)
    requires k <= |a| && k <= |b|
    requires forall y :: 0 <= y < k ==> a[y] == b[y]
    ensures RowMoment(a, x, p, q, k) == RowMoment(b, x, p, q, k)
  {
    if k > 0 {
      RowAgree(a, b, x, p, q, k - 1);
    }
  }

  /** An image whose visited cells are all zero has every moment zero. */
  lemma {:induction false} ZeroImage(pixels: Image, p: nat, q: nat, width: int, height: int)
    requires Reaches(pixels, height, width)
    requires forall x, y :: 0 <= x < height && 0 <= y < width ==> pixels[x][y] == 0
    ensures Moment(pixels, p, q, width, height) == 0
  {
    if height > 0 && width > 0 {
      ZeroImage(pixels, p, q, width, height - 1);
      ZeroRow(pixels[height - 1], height - 1, p, q, width);
    }
  }

  lemma {:induction false} ZeroRow(row: seq<int>, x: int, p: nat, q: nat, k: int)
    requires k <= |row|
    requires forall y :: 0 <= y < k ==> row[y] == 0
    ensures RowMoment(row, x, p, q, k) == 0
  {
    if k > 0 {
      ZeroRow(row, x, p, q, k - 1);
    }
  }

  /** Two images that agree on the loop region except possibly on row 0
      have the same moment when p >= 1: row 0 is weighted by `0 ** p`. */
  lemma {:induction false} RowZeroIgnored(a: Image, b: Image, p: nat, q: nat, width: int, height: int)
    requires p >= 1
    requires Reaches(a, height, width) && Reaches(b, height, width)
    requires forall x, y :: 1 <= x < height && 0 <= y < width ==> a[x][y] == b[x][y]
    ensures Moment(a, p, q, width, height) == Moment(b, p, q, width, height)
  {
    if height > 0 && width > 0 {
      if height == 1 {
        PowZero(p);
        ZeroWeightRow(a[0], p, q, width);
        ZeroWeightRow(b[0], p, q, width);
      } else {
        RowZeroIgnored(a, b, p, q, width, height - 1);
        RowAgree(a[height - 1], b[height - 1], height - 1, p, q, width);
      }
    }
  }

  lemma {:induction false} ZeroWeightRow(row: seq<int>, p: nat, q: nat, k: int)
    requires p >= 1 && k <= |row|
    ensures RowMoment(row, 0, p, q, k) == 0
  {
    if k > 0 {
      ZeroWeightRow(row, p, q, k - 1);
      PowZero(p);
    }
  }

  /** Two images that agree on the loop region except possibly on column 0
      have the same moment when q >= 1: column 0 is weighted by `0 ** q`. */
  lemma {:induction false} ColumnZeroIgnored(a: Image, b: Image, p: nat, q: nat, width: int, height: int)
    requires q >= 1
    requires Reaches(a, height, width) && Reaches(b, height, width)
    requires forall x, y :: 0 <= x < height && 1 <= y < width ==> a[x][y] == b[x][y]
    ensures Moment(a, p, q, width, height) == Moment(b, p, q, width, height)
  {
    if height > 0 && width > 0 {
      ColumnZeroIgnored(a, b, p, q, width, height - 1);
      RowTailAgree(a[height - 1], b[height - 1], height - 1, p, q, width);
    }
  }

  lemma {:induction false} RowTailAgree(a: seq<int>, b: seq<int>, x: int, p: nat, q: nat, k: int)
    requires q >= 1 && k <= |a| && k <= |b|
    requires forall y :: 1 <= y < k ==> a[y] == b[y]
    ensures RowMoment(a, x, p, q, k) == RowMoment(b, x, p, q, k)
  {
    if k == 1 {
      PowZero(q);
      assert RowMoment(a, x, p, q, 0) == 0 == RowMoment(b, x, p, q, 0);
    } else if k > 1 {
      RowTailAgree(a, b, x, p, q, k - 1);
    }
  }

  /** Moments are additive: the moment of a cell-wise sum is the sum of the
      moments. */
  lemma {:induction false} MomentAdditive(a: Image, b: Image, c: Image, p: nat, q: nat, width: int, height: int)
    requires Reaches(a, height, width) && Reaches(b, height, width) && Reaches(c, height, width)
    requires forall x, y :: 0 <= x < height && 0 <= y < width ==> c[x][y] == a[x][y] + b[x][y]
    ensures Moment(c, p, q, width, height) == Moment(a, p, q, width, height) + Moment(b, p, q, width, height)
  {
    if height > 0 && width > 0 {
      MomentAdditive(a, b, c, p, q, width, height - 1);
      RowAdditive(a[height - 1], b[height - 1], c[height - 1], height - 1, p, q, width);
    }
  }

  lemma {:induction false} RowAdditive(a: seq<int>, b: seq<int>, c: seq<int>, x: int, p: nat, q: nat, k: int)
    requires k <= |a| && k <= |b| && k <= |c|
    requires forall y :: 0 <= y < k ==> c[y] == a[y] + b[y]
    ensures RowMoment(c, x, p, q, k) == RowMoment(a, x, p, q, k) + RowMoment(b, x, p, q, k)
  {
    if k > 0 {
      RowAdditive(a, b, c, x, p, q, k - 1);
      Distribute(Pow(x, p) * Pow(k - 1, q), a[k - 1], b[k - 1]);
    }
  }

  lemma Distribute(w: int, u: int, v: int)
    ensures w * (u + v) == w * u + w * v
  {
  }

  /** `m00` is the total intensity: with `0 ** 0 == 1` row 0 and column 0
      count like any other. */
  lemma {:induction false} TotalIntensity(pixels: Image, height: nat, width: nat)
    requires Rectangular(pixels, height, width)
    ensures Moment(pixels, 0, 0, width, height) == Sum(Flatten(pixels))
  {
    assert pixels[..height] == pixels;
    PrefixIntensity(pixels, width, height);
  }

  lemma {:induction false} PrefixIntensity(pixels: Image, width: nat, k: nat)
    requires k <= |pixels| && forall x :: 0 <= x < |pixels| ==> |pixels[x]| == width
    ensures Moment(pixels, 0, 0, width, k) == Sum(Flatten(pixels[..k]))
  {
    if k > 0 {
      PrefixIntensity(pixels, width, k - 1);
      FlattenSnoc(pixels, k - 1);
      SumConcat(Flatten(pixels[..k - 1]), pixels[k - 1]);
      RowIntensity(pixels[k - 1], k - 1, width);
      assert pixels[k - 1][..width] == pixels[k - 1];
    }
  }

  lemma {:induction false} RowIntensity(row: seq<int>, x: int, k: nat)
    requires k <= |row|
    ensures RowMoment(row, x, 0, 0, k) == Sum(row[..k])
  {
    if k > 0 {
      RowIntensity(row, x, k - 1);
      assert row[..k][..k - 1] == row[..k - 1];
    }
  }

  /** With nonnegative pixels `m00` is zero exactly when every visited
      cell is zero. */
  lemma {:induction false} BlankIffZeroMass(pixels: Image, width: int, height: int)
    requires NonNegativeRegion(pixels, width, height)
    ensures Moment(pixels, 0, 0, width, height) == 0 <==>
      forall x, y :: 0 <= x < height && 0 <= y < width ==> pixels[x][y] == 0
  {
    if height > 0 && width > 0 {
      var x := height - 1;
      BlankIffZeroMass(pixels, width, x);
      MomentNonNegative(pixels, 0, 0, width, x);
      RowBlankIffZero(pixels, x, width);
      if Moment(pixels, 0, 0, width, height) == 0 {
        forall i, y | 0 <= i < height && 0 <= y < width ensures pixels[i][y] == 0 {
          if i < x {
            assert pixels[i][y] == 0;
          }
        }
      }
    }
  }

  lemma {:induction false} RowBlankIffZero(pixels: Image, x: nat, k: nat)
    requires x < |pixels| && k <= |pixels[x]|
    requires forall y :: 0 <= y < k ==> 0 <= pixels[x][y]
    ensures RowMoment(pixels[x], x, 0, 0, k) >= 0
    ensures RowMoment(pixels[x], x, 0, 0, k) == 0 <==> forall y :: 0 <= y < k ==> pixels[x][y] == 0
  {
    if k > 0 {
      RowBlankIffZero(pixels, x, k - 1);
    }
  }

  /** The three raw moments `centralMoments` starts from. */
  datatype Centroid = Centroid(m10: int, m01: int, m00: int)

  /** The prologue of `centralMoments`: `m10`, `m01` and `m00`, in that
      order, then the divisions `m10 / m00` and `m01 / m00`, which raise on a
      zero `m00`. The quotients themselves are floating point and are kept
      as the exact fractions m10/m00 and m01/m00. */
  function CentroidOf(pixels: Image, width: int, height: int): (r: Result<Centroid, MomentError>)
    ensures r.Failure? ==> (r.error == IndexError <==> !Reaches(pixels, height, width))
    ensures r == Failure(ZeroDivisionError) <==>
      Reaches(pixels, height, width) && Moment(pixels, 0, 0, width, height) == 0
    ensures r.Success? ==> Reaches(pixels, height, width) && r.value.m00 != 0
    ensures r.Success? ==> r.value == Centroid(Moment(pixels, 1, 0, width, height),
                                               Moment(pixels, 0, 1, width, height),
                                               Moment(pixels, 0, 0, width, height))
  {
    if !Reaches(pixels, height, width) then Failure(IndexError)
    else
      var m00 := Moment(pixels, 0, 0, width, height);
      if m00 == 0 then Failure(ZeroDivisionError)
      else Success(Centroid(Moment(pixels, 1, 0, width, height), Moment(pixels, 0, 1, width, height), m00))
  }

  /** For an image of nonnegative pixels, the centroid is undefined exactly
      when the visited region is blank. */
  lemma BlankImageHasNoCentroid(pixels: Image, width: int, height: int)
    requires NonNegativeRegion(pixels, width, height)
    ensures CentroidOf(pixels, width, height) == Failure(ZeroDivisionError) <==>
      forall x, y :: 0 <= x < height && 0 <= y < width ==> pixels[x][y] == 0
  {
    BlankIffZeroMass(pixels, width, height);
  }
}

=== FILE: pgm.dfy ===
/** The raw ("P5") PGM codec shared, line for line, by the five scripts:
    `readPGM` parses a header of one field per line and slices the rest of
    the file into rows; `writePixelsToPGM` emits the three header fields and
    the rows in row-major order. The file is an in-memory byte sequence. */
module Pgm {
  import opened Results
  import opened PyText
  import opened Raster

  type byte = x: int | 0 <= x < 256

  const LF: byte := 10

  datatype PgmError =
    | NonAsciiHeader  // a header line holds a byte >= 0x80
    | NotP5           // the stripped first line is not "P5"
    | BadMaxGray      // int() fails on the max-gray line
    | BadDimension    // the dimension line is not exactly two ints
    | ByteOutOfRange  // bytes() meets a pixel outside 0..255

  datatype PgmImage = PgmImage(width: int, height: int, maxGray: int, pixels: Image)

  /** Text the model can write as a header line: ASCII without a line feed. */
  predicate TextLine(s: string)
  {
    forall i :: 0 <= i < |s| ==> s[i] as int < 128 && s[i] != '\n'
  }

  predicate AsciiText(s: string)
  {
    forall i :: 0 <= i < |s| ==> s[i] as int < 128
  }

  /** The ASCII encoding of a text. */
  function Ascii(s: string): (b: seq<byte>)
    requires AsciiText(s)
    ensures |b| == |s|
  {
    seq(|s|, i requires 0 <= i < |s| => s[i] as int)
  }

  /** One header line as it sits in the file. */
  function Line(s: string): seq<byte>
    requires TextLine(s)
  {
    Ascii(s) + [LF]
  }

  /** Consecutive header lines. */
  function Lines(texts: seq<string>): seq<byte>
    requires forall k :: 0 <= k < |texts| ==> TextLine(texts[k])
  {
    if texts == [] then [] else Line(texts[0]) + Lines(texts[1..])
  }

  /** `file.readline()`: the bytes up to and including the next line feed, or
      everything that is left when there is none, and the bytes after. */
  function ReadLine(data: seq<byte>): (r: (seq<byte>, seq<byte>))
    ensures r.0 + r.1 == data
    ensures data != [] ==> r.0 != []
    ensures forall i :: 0 <= i < |r.0| - 1 ==> r.0[i] != LF
    ensures r.1 != [] ==> r.0[|r.0| - 1] == LF
  {
    if data == [] then ([], [])
    else if data[0] == LF then ([LF], data[1..])
    else
      var (line, rest) := ReadLine(data[1..]);
      ([data[0]] + line, rest)
  }

  /** `.decode()` of a header line, for ASCII bytes. */
  function DecodeLine(line: seq<byte>): (r: Result<string, PgmError>)
    ensures r.Success? ==> |r.value| == |line|
  {
    if forall i :: 0 <= i < |line| ==> line[i] < 128
    then Success(seq(|line|, i requires 0 <= i < |line| => line[i] as char))
    else Failure(NonAsciiHeader)
  }

  /** The loop that reads header lines until one whose stripped text does not
      start with '#'; returns that stripped text and the bytes after it. */
  function SkipComments(data: seq<byte>): (r: Result<(string, seq<byte>), PgmError>)
    ensures r.Success? ==> !StartsWith(r.value.0, "#")
    ensures r.Failure? ==> r.error == NonAsciiHeader
    decreases |data|
  {
    var (line, rest) := ReadLine(data);
    var text :- DecodeLine(line);
    var stripped := Strip(text);
    if StartsWith(stripped, "#") then SkipComments(rest) else Success((stripped, rest))
  }

  /** `width, height = map(int, dimension.split())`. */
  function ParseDimension(dimension: string): (r: Result<(int, int), PgmError>)
    ensures r.Failure? ==> r.error == BadDimension
  {
    var words := Split(dimension);
    if |words| != 2 then Failure(BadDimension)
    else
      match (ParseInt(words[0]), ParseInt(words[1]))
      case (Some(width), Some(height)) => Success((width, height))
      case _ => Failure(BadDimension)
  }

  /** `[list(data[row * width : (row + 1) * width]) for row in range(height)]`. */
  function PixelRows(data: seq<byte>, width: int, height: int): (rows: Image)
    ensures |rows| == (if height < 0 then 0 else height)
    ensures CellsWithin(rows, 0, 255)
  {
    if height <= 0 then []
    else seq(height, row requires 0 <= row < height => PySlice(data, row * width, (row + 1) * width))
  }

  /** `readPGM` on the content of a file. */
  function ReadPgm(data: seq<byte>): (r: Result<PgmImage, PgmError>)
    ensures r.Success? ==>
      && |r.value.pixels| == (if r.value.height < 0 then 0 else r.value.height)
      && CellsWithin(r.value.pixels, 0, 255)
      && (0 <= r.value.width ==> forall x :: 0 <= x < |r.value.pixels| ==> |r.value.pixels[x]| <= r.value.width)
  {
    var (first, afterMagic) := ReadLine(data);
    var magic :- DecodeLine(first);
    if Strip(magic) != "P5" then Failure(NotP5)
    else
      var header :- SkipComments(afterMagic);
      var (dimension, afterDimension) := header;
      var (maxLine, pixelData) := ReadLine(afterDimension);
      var maxText :- DecodeLine(maxLine);
      match ParseInt(Strip(maxText))
      case None => Failure(BadMaxGray)
      case Some(maxGray) =>
        var size :- ParseDimension(dimension);
        var (width, height) := size;
        var rows := PixelRows(pixelData, width, height);
        RowsBounds(pixelData, width, height);
        Success(PgmImage(width, height, maxGray, rows))
  }

  /** With a non-negative width no row is wider than `width`. */
  lemma RowsBounds(data: seq<byte>, width: int, height: int)
    ensures 0 <= width ==> forall x :: 0 <= x < |PixelRows(data, width, height)| ==> |PixelRows(data, width, height)[x]| <= width
  {
    var rows := PixelRows(data, width, height);
    if 0 <= width {
      forall x | 0 <= x < |rows|
        ensures |rows[x]| <= width
      {
        assert (x + 1) * width == x * width + width;
      }
    }
  }

  /** The three header fields `writePixelsToPGM` hands to `writePGM`. */
  function PgmHeader(width: int, height: int, maxGray: int): seq<string>
  {
    ["P5", IntToString(width) + " " + IntToString(height), IntToString(maxGray)]
  }

  /** `writePGM`: the header fields joined by line feeds and encoded, a line
      feed, then the pixel bytes unchanged. */
  function WriteFile(header: seq<string>, payload: seq<byte>): (file: seq<byte>)
    requires forall k :: 0 <= k < |header| ==> AsciiText(header[k])
    ensures |payload| < |file|
    ensures file[|file| - |payload| - 1] == LF
    ensures file[|file| - |payload|..] == payload
  {
    JoinAscii("\n", header);
    AsciiConcat(Join("\n", header), "\n");
    Ascii(Join("\n", header) + "\n") + payload
  }

  /** `writePixelsToPGM`: `bytes(sum(pixels, []))` after the header; the
      conversion to bytes fails exactly when some cell is outside 0..255,
      and otherwise the file is the three header lines and the cells in
      row-major order. */
  function WritePgm(width: int, height: int, maxGray: int, pixels: Image): (r: Result<seq<byte>, PgmError>)
    ensures r.Failure? <==> !CellsWithin(pixels, 0, 255)
    ensures r.Failure? ==> r.error == ByteOutOfRange
    ensures forall k :: 0 <= k < 3 ==> TextLine(PgmHeader(width, height, maxGray)[k])
    ensures r.Success? ==> r.value == Lines(PgmHeader(width, height, maxGray)) + Flatten(pixels)
  {
    var header := PgmHeader(width, height, maxGray);
    var flat := Flatten(pixels);
    // `bytes()` meets an out-of-range value exactly when some cell is one.
    FlattenWithin(pixels, 0, 255);
    HeaderIsText(width, height, maxGray);
    if forall i :: 0 <= i < |flat| ==> 0 <= flat[i] <= 255 then
      var payload: seq<byte> := flat;
      WriteFileLines(header, payload);
      Success(WriteFile(header, payload))
    else
      Failure(ByteOutOfRange)
  }

  /** The header fields are single lines of ASCII text. */
  lemma HeaderIsText(width: int, height: int, maxGray: int)
    ensures forall k :: 0 <= k < |PgmHeader(width, height, maxGray)| ==> TextLine(PgmHeader(width, height, maxGray)[k])
  {
    var header := PgmHeader(width, height, maxGray);
    NumberText(width, height, maxGray);
    assert TextLine(header[0]);
  }

  lemma NumberText(width: int, height: int, maxGray: int)
    ensures TextLine(IntToString(width) + " " + IntToString(height))
    ensures TextLine(IntToString(maxGray))
  {
    var w, h, m := IntToString(width), IntToString(height), IntToString(maxGray);
    assert forall i :: 0 <= i < |m| ==> IsDigit(m[i]) || m[i] == '-';
    var dims := w + " " + h;
    forall i | 0 <= i < |dims|
      ensures dims[i] as int < 128 && dims[i] != '\n'
    {
      if i < |w| {
        assert dims[i] == w[i];
      } else if i > |w| {
        assert dims[i] == h[i - |w| - 1];
      }
    }
  }

  lemma {:induction false} JoinAscii(sep: string, parts: seq<string>)
    requires AsciiText(sep)
    requires forall k :: 0 <= k < |parts| ==> AsciiText(parts[k])
    ensures AsciiText(Join(sep, parts))
  {
    if |parts| > 1 {
      JoinAscii(sep, parts[1..]);
    }
  }

  lemma AsciiConcat(s: string, t: string)
    requires AsciiText(s) && AsciiText(t)
    ensures Ascii(s + t) == Ascii(s) + Ascii(t)
  {
  }

  /** Joining single-line fields with line feeds and adding one more line
      feed writes each field as its own line. */
  lemma WriteFileLines(header: seq<string>, payload: seq<byte>)
    requires header != []
    requires forall k :: 0 <= k < |header| ==> TextLine(header[k])
    ensures forall k :: 0 <= k < |header| ==> AsciiText(header[k])
    ensures WriteFile(header, payload) == Lines(header) + payload
  {
    JoinedLines(header);
  }

  lemma {:induction false} JoinedLines(header: seq<string>)
    requires header != []
    requires forall k :: 0 <= k < |header| ==> TextLine(header[k])
    ensures AsciiText(Join("\n", header) + "\n")
    ensures Ascii(Join("\n", header) + "\n") == Lines(header)
  {
    var first := header[0];
    var later := header[1..];
    assert forall k :: 0 <= k < |later| ==> TextLine(later[k]) by {
      forall k | 0 <= k < |later| ensures TextLine(later[k]) {
        assert later[k] == header[k + 1];
      }
    }
    assert Lines(header) == Line(first) + Lines(later);
    assert Ascii("\n") == [LF];
    AsciiConcat(first, "\n");
    if |header| == 1 {
      assert Join("\n", header) == first;
      assert Lines(later) == [];
    } else {
      JoinedLines(later);
      var rest := Join("\n", later) + "\n";
      assert Join("\n", header) + "\n" == (first + "\n") + rest;
      AsciiConcat(first + "\n", rest);
    }
  }

  /** `readline()` stops at the line feed that ends a header line. */
  lemma {:induction false} ReadLineOf(s: string, rest: seq<byte>)
    requires TextLine(s)
    ensures ReadLine(Line(s) + rest) == (Line(s), rest)
  {
    var data := Line(s) + rest;
    if s == [] {
      assert data == [LF] + rest;
      assert data[1..] == rest;
    } else {
      assert data[0] == s[0] as int != LF;
      assert data[1..] == Line(s[1..]) + rest;
      ReadLineOf(s[1..], rest);
      assert Line(s) == [data[0]] + Line(s[1..]);
    }
  }

  lemma DecodeLineOf(s: string)
    requires TextLine(s)
    ensures DecodeLine(Line(s)) == Success(s + "\n")
  {
    var line := Line(s);
    assert forall i :: 0 <= i < |line| ==> line[i] < 128;
    assert DecodeLine(line).value == s + "\n";
  }

  /** The text a header line yields once decoded and stripped. */
  lemma StrippedLine(s: string)
    requires TextLine(s)
    ensures DecodeLine(Line(s)).Success?
    ensures Strip(DecodeLine(Line(s)).value) == Strip(s)
  {
    DecodeLineOf(s);
    StripTrailingSpace(s, '\n');
  }

  /** A line whose stripped text starts with '#'. */
  predicate CommentLine(s: string)
  {
    StartsWith(Strip(s), "#")
  }

  lemma {:induction false} SkipCommentLines(comments: seq<string>, rest: seq<byte>)
    requires forall k :: 0 <= k < |comments| ==> TextLine(comments[k]) && CommentLine(comments[k])
    ensures SkipComments(Lines(comments) + rest) == SkipComments(rest)
  {
    if comments != [] {
      var c := comments[0];
      var later := comments[1..];
      assert forall k :: 0 <= k < |later| ==> TextLine(later[k]) && CommentLine(later[k]) by {
        forall k | 0 <= k < |later| ensures TextLine(later[k]) && CommentLine(later[k]) {
          assert later[k] == comments[k + 1];
        }
      }
      var tail := Lines(later) + rest;
      assert Lines(comments) == Line(c) + Lines(later);
      Associate(Line(c), Lines(later), rest);
      SkipOneComment(c, tail);
      SkipCommentLines(later, rest);
    } else {
      assert Lines(comments) + rest == rest;
    }
  }

  lemma SkipOneComment(comment: string, rest: seq<byte>)
    requires TextLine(comment) && CommentLine(comment)
    ensures SkipComments(Line(comment) + rest) == SkipComments(rest)
  {
    ReadLineOf(comment, rest);
    StrippedLine(comment);
  }

  lemma SkipToDimension(dimension: string, rest: seq<byte>)
    requires TextLine(dimension) && !CommentLine(dimension)
    ensures SkipComments(Line(dimension) + rest) == Success((Strip(dimension), rest))
  {
    ReadLineOf(dimension, rest);
    StrippedLine(dimension);
  }

  /** A file laid out as a magic line, comment lines, a dimension line, a
      max-gray line and the pixel bytes. */
  function Layout(magic: string, comments: seq<string>, dimension: string, maxGray: string, payload: seq<byte>): seq<byte>
    requires TextLine(magic) && TextLine(dimension) && TextLine(maxGray)
    requires forall k :: 0 <= k < |comments| ==> TextLine(comments[k])
  {
    Line(magic) + (Lines(comments) + (Line(dimension) + (Line(maxGray) + payload)))
  }

  /** What `readPGM` returns for a file laid out as a magic line, any number
      of comment lines, a dimension line, a max-gray line and pixel bytes:
      NotP5 unless the magic is "P5", then BadMaxGray unless the max-gray
      line is an int, then BadDimension unless the dimension line is two
      ints, and otherwise the parsed header with the pixel bytes cut into
      rows. */
  lemma ReadLayout(magic: string, comments: seq<string>, dimension: string, maxGray: string, payload: seq<byte>)
    requires TextLine(magic) && TextLine(dimension) && TextLine(maxGray)
    requires forall k :: 0 <= k < |comments| ==> TextLine(comments[k]) && CommentLine(comments[k])
    requires !CommentLine(dimension)
    ensures ReadPgm(Layout(magic, comments, dimension, maxGray, payload)) ==
      if Strip(magic) != "P5" then Failure(NotP5)
      else if ParseInt(Strip(maxGray)).None? then Failure(BadMaxGray)
      else match ParseDimension(Strip(dimension))
        case Failure(_) => Failure(BadDimension)
        case Success(size) => Success(PgmImage(size.0, size.1, ParseInt(Strip(maxGray)).value, PixelRows(payload, size.0, size.1)))
  {
    var afterDimension := Line(maxGray) + payload;
    var afterComments := Line(dimension) + afterDimension;
    var afterMagic := Lines(comments) + afterComments;
    var data := Line(magic) + afterMagic;
    ReadLineOf(magic, afterMagic);
    StrippedLine(magic);
    assert data == Layout(magic, comments, dimension, maxGray, payload);
    if Strip(magic) == "P5" {
      SkipCommentLines(comments, afterComments);
      SkipToDimension(dimension, afterDimension);
      assert SkipComments(afterMagic) == Success((Strip(dimension), afterDimension));
      ReadLineOf(maxGray, payload);
      DecodeLineOf(maxGray);
      StripTrailingSpace(maxGray, '\n');
      ReadAfterHeader(data, Line(magic), afterMagic, Strip(dimension), afterDimension, Line(maxGray), maxGray + "\n", payload);
    } else {
      RejectsNonP5Magic(data);
    }
  }

  /** `readPGM` once the magic line, the comment loop and the max-gray line
      have been read. */
  lemma ReadAfterHeader(data: seq<byte>, first: seq<byte>, afterMagic: seq<byte>, dimension: string,
                        afterDimension: seq<byte>, maxLine: seq<byte>, maxText: string, pixelData: seq<byte>)
    requires ReadLine(data) == (first, afterMagic)
    requires DecodeLine(first).Success? && Strip(DecodeLine(first).value) == "P5"
    requires SkipComments(afterMagic) == Success((dimension, afterDimension))
    requires ReadLine(afterDimension) == (maxLine, pixelData)
    requires DecodeLine(maxLine) == Success(maxText)
    ensures ReadPgm(data) ==
      if ParseInt(Strip(maxText)).None? then Failure(BadMaxGray)
      else match ParseDimension(dimension)
        case Failure(_) => Failure(BadDimension)
        case Success(size) => Success(PgmImage(size.0, size.1, ParseInt(Strip(maxText)).value, PixelRows(pixelData, size.0, size.1)))
  {
  }

  /** `readPGM` raises "not a PGM P5 format" exactly when the first line
      decodes and its stripped text is not "P5". */
  lemma RejectsNonP5Magic(data: seq<byte>)
    ensures ReadPgm(data) == Failure(NotP5) <==>
      && DecodeLine(ReadLine(data).0).Success?
      && Strip(DecodeLine(ReadLine(data).0).value) != "P5"
  {
    var first := ReadLine(data).0;
    var magic := DecodeLine(first);
    if magic.Failure? {
      assert ReadPgm(data) == Failure(NonAsciiHeader);
    } else if Strip(magic.value) != "P5" {
      assert ReadPgm(data) == Failure(NotP5);
    } else {
      MagicAccepted(data);
    }
  }

  /** Once the magic line is "P5", `readPGM` fails, if at all, with another
      error. */
  lemma MagicAccepted(data: seq<byte>)
    requires DecodeLine(ReadLine(data).0).Success? && Strip(DecodeLine(ReadLine(data).0).value) == "P5"
    ensures ReadPgm(data) != Failure(NotP5)
  {
    var afterMagic := ReadLine(data).1;
    var header := SkipComments(afterMagic);
    if header.Success? {
      var (dimension, afterDimension) := header.value;
      var (maxLine, pixelData) := ReadLine(afterDimension);
      var maxText := DecodeLine(maxLine);
      if maxText.Success? {
        ReadAfterHeader(data, ReadLine(data).0, afterMagic, dimension, afterDimension, maxLine, maxText.value, pixelData);
      } else {
        assert ReadPgm(data) == Failure(NonAsciiHeader);
      }
    } else {
      assert ReadPgm(data) == Failure(NonAsciiHeader);
    }
  }

  /** Cutting the row-major cells of a rectangular image back into rows of
      `width` gives the image again. */
  lemma RowsOfFlatten(pixels: Image, width: nat, height: nat)
    requires Rectangular(pixels, height, width) && CellsWithin(pixels, 0, 255)
    ensures forall i :: 0 <= i < |Flatten(pixels)| ==> 0 <= Flatten(pixels)[i] <= 255
    ensures PixelRows(Flatten(pixels), width, height) == pixels
  {
    FlattenWithin(pixels, 0, 255);
    var flat: seq<byte> := Flatten(pixels);
    var rows := PixelRows(flat, width, height);
    FlattenLength(pixels, height, width);
    forall r | 0 <= r < height
      ensures rows[r] == pixels[r]
    {
      FlattenRow(pixels, height, width, r);
      PayloadRows(flat, width, height, r);
    }
  }

  /** A dimension line of two words with any whitespace around and between
      them: the first word is the width and the second the height, and the
      line is rejected unless both are ints. */
  lemma DimensionLine(s0: string, a: string, s1: string, b: string, s2: string)
    requires Blank(s0) && Blank(s1) && s1 != [] && Blank(s2)
    requires a != [] && NoSpace(a) && b != [] && NoSpace(b)
    ensures ParseDimension(s0 + a + s1 + b + s2).Success? <==> ParseInt(a).Some? && ParseInt(b).Some?
    ensures ParseDimension(s0 + a + s1 + b + s2).Success? ==>
      ParseDimension(s0 + a + s1 + b + s2).value == (ParseInt(a).value, ParseInt(b).value)
  {
    SplitTwoWordsAmid(s0, a, s1, b, s2);
  }

  /** A blank dimension line, or one of a single word, cannot be unpacked
      into a width and a height. */
  lemma TooFewDimensions(s0: string, a: string, s1: string)
    requires Blank(s0) && Blank(s1) && NoSpace(a)
    ensures ParseDimension(s0 + a + s1) == Failure(BadDimension)
  {
    if a == [] {
      assert Blank(s0 + a + s1);
      SplitBlank(s0 + a + s1);
    } else {
      SplitOneWord(s0, a, s1);
    }
  }

  /** A dimension line of three or more words cannot be unpacked into a
      width and a height, whatever the words are: `rest` holds any further
      words. */
  lemma TooManyDimensions(s0: string, a: string, s1: string, b: string, s2: string, c: string, rest: string)
    requires Blank(s0) && Blank(s1) && s1 != [] && Blank(s2) && s2 != []
    requires a != [] && NoSpace(a) && b != [] && NoSpace(b) && c != [] && NoSpace(c)
    requires rest == [] || IsSpace(rest[0])
    ensures ParseDimension(s0 + a + s1 + b + s2 + c + rest) == Failure(BadDimension)
  {
    SplitThreeWordsThen(s0, a, s1, b, s2, c, rest);
  }

  lemma DimensionOf(dimension: string, first: string, second: string, width: int, height: int)
    requires Split(dimension) == [first, second]
    requires ParseInt(first) == Some(width) && ParseInt(second) == Some(height)
    ensures ParseDimension(dimension) == Success((width, height))
  {
  }

  /** The header lines `writePixelsToPGM` emits parse back to the numbers
      written. */
  lemma HeaderFields(width: int, height: int, maxGray: int)
    ensures TextLine(IntToString(width) + " " + IntToString(height)) && TextLine(IntToString(maxGray))
    ensures !CommentLine(IntToString(width) + " " + IntToString(height))
    ensures ParseDimension(Strip(IntToString(width) + " " + IntToString(height))) == Success((width, height))
    ensures ParseInt(Strip(IntToString(maxGray))) == Some(maxGray)
  {
    StripUnchanged(IntToString(maxGray));
    var w := IntToString(width);
    var h := IntToString(height);
    var dims := w + " " + h;
    NumberText(width, height, maxGray);
    StripUnchanged(dims);
    assert dims[0] == w[0];
    SplitTwoWords(w, h);
    ParseIntToString(width);
    ParseIntToString(height);
    ParseIntToString(maxGray);
    DimensionOf(dims, w, h, width, height);
    NotComment(dims);
  }

  lemma NotComment(s: string)
    requires s != [] && s[0] != '#' && Strip(s) == s
    ensures !CommentLine(s)
  {
    assert s[..1] == [s[0]];
  }

  /** The file `writePixelsToPGM` writes is a header without comments
      followed by the cells in row-major order. */
  lemma WrittenLayout(width: int, height: int, maxGray: int, pixels: Image)
    requires CellsWithin(pixels, 0, 255)
    ensures forall k :: 0 <= k < 3 ==> TextLine(PgmHeader(width, height, maxGray)[k])
    ensures forall i :: 0 <= i < |Flatten(pixels)| ==> 0 <= Flatten(pixels)[i] <= 255
    ensures var header := PgmHeader(width, height, maxGray);
      WritePgm(width, height, maxGray, pixels) == Success(Layout(header[0], [], header[1], header[2], Flatten(pixels)))
  {
    FlattenWithin(pixels, 0, 255);
    assert forall i :: 0 <= i < |Flatten(pixels)| ==> 0 <= Flatten(pixels)[i] <= 255;
    HeaderIsText(width, height, maxGray);
    var header := PgmHeader(width, height, maxGray);
    var payload: seq<byte> := Flatten(pixels);
    var r := WritePgm(width, height, maxGray, pixels);
    assert r.Success? && r.value == Lines(header) + payload;
    LinesOfThree(header);
    assert Lines([]) == [];
    var (l0, l1, l2) := (Line(header[0]), Line(header[1]), Line(header[2]));
    Associate(l0, l1, l2);
    Associate(l0, l1 + l2, payload);
    Associate(l1, l2, payload);
    assert [] + (l1 + (l2 + payload)) == l1 + (l2 + payload);
  }

  lemma LinesOfThree(texts: seq<string>)
    requires |texts| == 3 && forall k :: 0 <= k < 3 ==> TextLine(texts[k])
    ensures Lines(texts) == Line(texts[0]) + Line(texts[1]) + Line(texts[2])
  {
    assert texts[1..][0] == texts[1];
    assert texts[1..][1..][0] == texts[2];
    assert texts[1..][1..][1..] == [];
    assert Lines(texts[1..][1..]) == Line(texts[2]) + [];
  }

  /** A "P5" file without comments whose header fields parse. */
  lemma ReadPlainHeader(magic: string, dimension: string, maxText: string, payload: seq<byte>, width: int, height: int, maxGray: int)
    requires TextLine(magic) && Strip(magic) == "P5"
    requires TextLine(dimension) && TextLine(maxText) && !CommentLine(dimension)
    requires ParseDimension(Strip(dimension)) == Success((width, height))
    requires ParseInt(Strip(maxText)) == Some(maxGray)
    ensures ReadPgm(Layout(magic, [], dimension, maxText, payload)) == Success(PgmImage(width, height, maxGray, PixelRows(payload, width, height)))
  {
    ReadLayout(magic, [], dimension, maxText, payload);
  }

  lemma StripMagic()
    ensures TextLine("P5") && Strip("P5") == "P5"
  {
    StripUnchanged("P5");
  }

  /** Writing an image and reading the file back gives the same header and
      pixels: `readPGM(writePixelsToPGM(...))` is the identity on rectangular
      images of bytes. */
  lemma RoundTrip(width: int, height: int, maxGray: int, pixels: Image)
    requires Rectangular(pixels, height, width) && CellsWithin(pixels, 0, 255)
    ensures WritePgm(width, height, maxGray, pixels).Success?
    ensures ReadPgm(WritePgm(width, height, maxGray, pixels).value) == Success(PgmImage(width, height, maxGray, pixels))
  {
    assert 0 < height ==> |pixels[0]| == width;
    var dims := IntToString(width) + " " + IntToString(height);
    var max := IntToString(maxGray);
    HeaderFields(width, height, maxGray);
    RowsOfFlatten(pixels, if width < 0 then 0 else width, height);
    var payload: seq<byte> := Flatten(pixels);
    WrittenLayout(width, height, maxGray, pixels);
    assert PgmHeader(width, height, maxGray) == ["P5", dims, max];
    StripMagic();
    ReadPlainHeader("P5", dims, max, payload, width, height, maxGray);
    if height == 0 {
      assert PixelRows(payload, width, height) == [] == pixels;
    }
  }

  /** Row `r` of the pixels is the `r`-th run of `width` bytes after the
      max-gray line: complete while the data lasts, then one short row, then
      empty rows. */
  lemma PayloadRows(data: seq<byte>, width: nat, height: int, r: nat)
    requires r < height
    ensures (r + 1) * width <= |data| ==> PixelRows(data, width, height)[r] == data[r * width..(r + 1) * width]
    ensures r * width <= |data| < (r + 1) * width ==> PixelRows(data, width, height)[r] == data[r * width..]
    ensures |data| <= r * width ==> PixelRows(data, width, height)[r] == []
  {
    RowStep(r, width);
    assert PixelRows(data, width, height)[r] == PySlice(data, r * width, (r + 1) * width);
    ForwardSlice(data, r * width, (r + 1) * width);
  }

  /** Bytes after the last complete row do not change the pixels. */
  lemma TrailingBytesIgnored(data: seq<byte>, extra: seq<byte>, width: nat, height: nat)
    requires height * width <= |data|
    ensures PixelRows(data + extra, width, height) == PixelRows(data, width, height)
  {
    var longer := PixelRows(data + extra, width, height);
    var rows := PixelRows(data, width, height);
    assert |longer| == height == |rows|;
    forall r | 0 <= r < height ensures longer[r] == rows[r] {
      TrailingRow(data, extra, width, height, r);
    }
  }

  lemma TrailingRow(data: seq<byte>, extra: seq<byte>, width: nat, height: nat, r: nat)
    requires height * width <= |data| && r < height
    ensures PixelRows(data + extra, width, height)[r] == PixelRows(data, width, height)[r]
  {
    RowEnd(r, width, height);
    PayloadRows(data, width, height, r);
    PayloadRows(data + extra, width, height, r);
    PrefixSlice(data, extra, r * width, (r + 1) * width);
  }

  lemma PrefixSlice<T>(data: seq<T>, extra: seq<T>, a: nat, b: nat)
    requires a <= b <= |data|
    ensures (data + extra)[a..b] == data[a..b]
  {
  }

  /** With at least `height * width` bytes the pixels form a full
      `height` x `width` rectangle. */
  lemma CompletePayload(data: seq<byte>, width: nat, height: nat)
    requires height * width <= |data|
    ensures Rectangular(PixelRows(data, width, height), height, width)
  {
    forall r | 0 <= r < height
      ensures |PixelRows(data, width, height)[r]| == width
    {
      RowEnd(r, width, height);
      PayloadRows(data, width, height, r);
    }
  }

  /** `int(line.strip())` rejects a comment line. */
  lemma CommentIsNoInt(s: string)
    requires CommentLine(s)
    ensures ParseInt(Strip(s)) == None
  {
    IntOfStripped(s);
    var t := Strip(s);
    assert t[..1] == "#";
    assert t[0] == '#';
  }

  /** Comment lines are skipped only before the dimension line: a comment
      where the max-gray line belongs makes `int()` fail. */
  lemma LateCommentRejected(magic: string, comments: seq<string>, dimension: string, comment: string, payload: seq<byte>)
    requires TextLine(magic) && Strip(magic) == "P5"
    requires forall k :: 0 <= k < |comments| ==> TextLine(comments[k]) && CommentLine(comments[k])
    requires TextLine(dimension) && !CommentLine(dimension)
    requires TextLine(comment) && CommentLine(comment)
    ensures ReadPgm(Layout(magic, comments, dimension, comment, payload)) == Failure(BadMaxGray)
  {
    CommentIsNoInt(comment);
    ReadLayout(magic, comments, dimension, comment, payload);
  }
}

=== FILE: pytext.dfy ===
/** The pieces of Python's text and sequence semantics that the image
    scripts rely on: `str.isspace`, `str.strip`, `str.split`, `int(str)`,
    `str(int)`, `str.startswith`, list slicing and list indexing with
    negative indices. Text is restricted to code points below 128. */
module PyText {
  import opened Results

  /** `str.isspace` on code points below 128: tab, line feed, vertical tab,
      form feed, carriage return, the four separators 0x1C..0x1F, and space. */
  predicate IsSpace(c: char)
  {
    var k := c as int;
    k == 32 || 9 <= k <= 13 || 28 <= k <= 31
  }

  predicate IsDigit(c: char)
  {
    '0' <= c <= '9'
  }

  predicate NoSpace(s: string)
  {
    forall i :: 0 <= i < |s| ==> !IsSpace(s[i])
  }

  /** Drops leading whitespace. */
  function TrimLeft(s: string): (r: string)
    ensures |r| <= |s| && r == s[|s| - |r|..]
    ensures forall i :: 0 <= i < |s| - |r| ==> IsSpace(s[i])
    ensures r == [] || !IsSpace(r[0])
  {
    if s != [] && IsSpace(s[0]) then TrimLeft(s[1..]) else s
  }

  /** Drops trailing whitespace. */
  function TrimRight(s: string): (r: string)
    ensures |r| <= |s| && r == s[..|r|]
    ensures forall i :: |r| <= i < |s| ==> IsSpace(s[i])
    ensures r == [] || !IsSpace(r[|r| - 1])
  {
    if s != [] && IsSpace(s[|s| - 1]) then TrimRight(s[..|s| - 1]) else s
  }

  /** `str.strip()` with no argument. */
  function Strip(s: string): string
  {
    TrimLeft(TrimRight(s))
  }

  predicate StartsWith(s: string, prefix: string)
  {
    |prefix| <= |s| && s[..|prefix|] == prefix
  }

  /** Length of the leading run of non-whitespace characters. */
  function WordLength(s: string): (k: nat)
    ensures k <= |s|
    ensures forall i :: 0 <= i < k ==> !IsSpace(s[i])
    ensures k < |s| ==> IsSpace(s[k])
  {
    if s == [] || IsSpace(s[0]) then 0 else 1 + WordLength(s[1..])
  }

  /** `str.split()` with no argument: the maximal runs of non-whitespace
      characters, in order. */
  function Split(s: string): (words: seq<string>)
    decreases |s|
  {
    var t := TrimLeft(s);
    if t == [] then []
    else
      var k := WordLength(t);
      [t[..k]] + Split(t[k..])
  }

  /** A run of decimal digits in which single underscores may separate two
      digits, as `int()` accepts after the sign. */
  predicate DigitGroups(s: string)
  {
    && |s| > 0
    && IsDigit(s[0])
    && forall i {:trigger s[i]} :: 0 <= i < |s| ==> IsDigit(s[i]) || (s[i] == '_' && i + 1 < |s| && IsDigit(s[i + 1]))
  }

  function DropUnderscores(s: string): (r: string)
    ensures forall i :: 0 <= i < |r| ==> r[i] != '_'
  {
    if s == [] then []
    else if s[|s| - 1] == '_' then DropUnderscores(s[..|s| - 1])
    else DropUnderscores(s[..|s| - 1]) + [s[|s| - 1]]
  }

  function DigitValue(c: char): nat
    requires IsDigit(c)
  {
    c as int - '0' as int
  }

  /** The value of a string of decimal digits, most significant first. */
  function DigitsValue(s: string): nat
    requires forall i :: 0 <= i < |s| ==> IsDigit(s[i])
  {
    if s == [] then 0 else 10 * DigitsValue(s[..|s| - 1]) + DigitValue(s[|s| - 1])
  }

  function UnsignedValue(s: string): Option<nat>
  {
    if !DigitGroups(s) then None
    else
      var digits := DropUnderscores(s);
      DigitGroupsDigits(s);
      Some(DigitsValue(digits))
  }

  lemma DigitGroupsDigits(s: string)
    requires DigitGroups(s)
    ensures forall i :: 0 <= i < |DropUnderscores(s)| ==> IsDigit(DropUnderscores(s)[i])
  {
    forall i | 0 <= i < |s|
      ensures IsDigit(s[i]) || s[i] == '_'
    {
      assert IsDigit(s[i]) || (s[i] == '_' && i + 1 < |s| && IsDigit(s[i + 1]));
    }
    DigitsOrUnderscores(s);
  }

  lemma {:induction false} DigitsOrUnderscores(s: string)
    requires forall i :: 0 <= i < |s| ==> IsDigit(s[i]) || s[i] == '_'
    ensures forall i :: 0 <= i < |DropUnderscores(s)| ==> IsDigit(DropUnderscores(s)[i])
  {
    if s != [] {
      DigitsOrUnderscores(s[..|s| - 1]);
    }
  }

  /** The whitespace `int()` skips around its argument: tab, line feed,
      vertical tab, form feed, carriage return and space. The separators
      0x1C..0x1F count as whitespace for `str.isspace` but not here. */
  predicate IntSpace(c: char)
  {
    var k := c as int;
    k == 32 || 9 <= k <= 13
  }

  /** Drops the leading and trailing characters `int()` skips. */
  function IntTrim(s: string): (r: string)
    ensures |r| <= |s|
    decreases |s|
  {
    if s != [] && IntSpace(s[0]) then IntTrim(s[1..])
    else if s != [] && IntSpace(s[|s| - 1]) then IntTrim(s[..|s| - 1])
    else s
  }

  /** `int(s)` for base 10: surrounding whitespace, an optional sign, then
      digit groups; `None` where Python raises `ValueError`. */
  function ParseInt(s: string): Option<int>
  {
    ParseStripped(IntTrim(s))
  }

  /** `int()` once the surrounding whitespace is gone. */
  function ParseStripped(t: string): Option<int>
  {
    if t != [] && (t[0] == '-' || t[0] == '+') then
      match UnsignedValue(t[1..])
      case None => None
      case Some(n) => Some(if t[0] == '-' then -(n as int) else n as int)
    else
      match UnsignedValue(t)
      case None => None
      case Some(n) => Some(n)
  }

  function DigitChar(d: nat): (c: char)
    requires d < 10
    ensures IsDigit(c)
  {
    ('0' as int + d) as char
  }

  /** Decimal digits of a natural number, without leading zeros. */
  function NatToString(n: nat): (s: string)
    ensures s != [] && forall i :: 0 <= i < |s| ==> IsDigit(s[i])
    ensures n > 0 ==> s[0] != '0'
  {
    if n < 10 then [DigitChar(n)] else NatToString(n / 10) + [DigitChar(n % 10)]
  }

  /** `str(n)` for an int. */
  function IntToString(n: int): (s: string)
    ensures s != [] && NoSpace(s) && s[0] != '#'
    ensures forall i :: 0 <= i < |s| ==> IsDigit(s[i]) || s[i] == '-'
  {
    if n < 0 then "-" + NatToString(-n) else NatToString(n)
  }

  /** `int(str(n)) == n`. */
  lemma ParseIntToString(n: int)
    ensures ParseInt(IntToString(n)) == Some(n)
  {
    var s := IntToString(n);
    assert !IsSpace(s[0]) && !IsSpace(s[|s| - 1]);
    IntTrimUnchanged(s);
    var m: nat := if n < 0 then -n else n;
    var digits := NatToString(m);
    ParseNatToString(m);
    if n < 0 {
      assert s == "-" + digits;
      ParseNegative(s, digits, m);
    } else {
      ParseNonNegative(s, m);
    }
  }

  lemma ParseNegative(t: string, digits: string, n: nat)
    requires t == ['-'] + digits && UnsignedValue(digits) == Some(n)
    ensures ParseStripped(t) == Some(-(n as int))
  {
    assert t[1..] == digits;
  }

  lemma ParseNonNegative(t: string, n: nat)
    requires t != [] && IsDigit(t[0]) && UnsignedValue(t) == Some(n)
    ensures ParseStripped(t) == Some(n)
  {
  }

  lemma ParseNatToString(n: nat)
    ensures UnsignedValue(NatToString(n)) == Some(n)
  {
    var digits := NatToString(n);
    NatToStringValue(n);
    DropUnderscoresDigits(digits);
  }

  lemma {:induction false} NatToStringValue(n: nat)
    ensures DigitsValue(NatToString(n)) == n
  {
    if n >= 10 {
      NatToStringValue(n / 10);
      var s := NatToString(n);
      assert s[..|s| - 1] == NatToString(n / 10);
    }
  }

  lemma {:induction false} DropUnderscoresDigits(s: string)
    requires forall i :: 0 <= i < |s| ==> IsDigit(s[i])
    ensures DropUnderscores(s) == s
  {
    if s != [] {
      DropUnderscoresDigits(s[..|s| - 1]);
      assert s == s[..|s| - 1] + [s[|s| - 1]];
    }
  }

  /** Text that neither starts nor ends with whitespace is its own strip. */
  lemma StripUnchanged(s: string)
    requires s == [] || (!IsSpace(s[0]) && !IsSpace(s[|s| - 1]))
    ensures Strip(s) == s
  {
  }

  /** A trailing whitespace character does not change the strip. */
  lemma StripTrailingSpace(s: string, c: char)
    requires IsSpace(c)
    ensures Strip(s + [c]) == Strip(s)
  {
    assert (s + [c])[..|s|] == s;
  }

  /** Text that neither starts nor ends with whitespace is left alone by
      `int()`'s trimming. */
  lemma IntTrimUnchanged(s: string)
    requires s == [] || (!IsSpace(s[0]) && !IsSpace(s[|s| - 1]))
    ensures IntTrim(s) == s
  {
  }

  /** `str.strip()` leaves no whitespace at either end. */
  lemma StripEnds(s: string)
    ensures Strip(s) == [] || (!IsSpace(Strip(s)[0]) && !IsSpace(Strip(s)[|Strip(s)| - 1]))
  {
    var t := TrimRight(s);
    var r := TrimLeft(t);
    if r != [] {
      assert r[|r| - 1] == t[|t| - 1];
    }
  }

  /** `int(x.strip())` parses exactly the stripped text: no whitespace of
      either kind is left for `int()` to skip. */
  lemma IntOfStripped(s: string)
    ensures ParseInt(Strip(s)) == ParseStripped(Strip(s))
  {
    StripEnds(s);
    IntTrimUnchanged(Strip(s));
  }

  /** `int()` alone rejects a trailing record separator (0x1E), which
      `str.strip()` removes: `int(x.strip())`, as the readers write it,
      accepts what `int(x)` refuses. */
  lemma SeparatorNeedsStrip()
    ensures ParseInt("7" + [30 as char]) == None
    ensures ParseInt(Strip("7" + [30 as char])) == Some(7)
  {
    var s := "7" + [30 as char];
    assert IntTrim(s) == s;
    assert TrimRight(s) == "7";
    assert Strip(s) == "7";
    assert UnsignedValue("7") == Some(7);
  }

  /** Two words separated by one space: `SplitTwoWordsAmid` without outer
      whitespace. */
  lemma SplitTwoWords(a: string, b: string)
    requires a != [] && NoSpace(a)
    requires b != [] && NoSpace(b)
    ensures Split(a + " " + b) == [a, b]
  {
    var none: string := [];
    assert Blank(" ");
    assert none + a + " " + b + none == a + " " + b;
    SplitTwoWordsAmid(none, a, " ", b, none);
  }

  /** A word followed by nothing or by whitespace splits off as the first word. */
  lemma SplitWordThen(a: string, rest: string)
    requires a != [] && NoSpace(a)
    requires rest == [] || IsSpace(rest[0])
    ensures Split(a + rest) == [a] + Split(rest)
  {
    var s := a + rest;
    assert s[0] == a[0];
    assert TrimLeft(s) == s;
    WordLengthOf(a, rest);
    assert s[..|a|] == a;
    assert s[|a|..] == rest;
    assert Split(s) == [s[..WordLength(s)]] + Split(s[WordLength(s)..]);
  }

  lemma {:induction false} WordLengthOf(a: string, rest: string)
    requires NoSpace(a)
    requires rest == [] || IsSpace(rest[0])
    ensures WordLength(a + rest) == |a|
  {
    if a != [] {
      assert (a + rest)[1..] == a[1..] + rest;
      WordLengthOf(a[1..], rest);
    } else {
      assert a + rest == rest;
    }
  }

  /** Text made of whitespace only. */
  predicate Blank(s: string)
  {
    forall i :: 0 <= i < |s| ==> IsSpace(s[i])
  }

  lemma {:induction false} TrimLeftBlank(sp: string, t: string)
    requires Blank(sp)
    ensures TrimLeft(sp + t) == TrimLeft(t)
    decreases |sp|
  {
    if sp != [] {
      assert (sp + t)[1..] == sp[1..] + t;
      TrimLeftBlank(sp[1..], t);
    } else {
      assert sp + t == t;
    }
  }

  /** Leading whitespace does not change the split. */
  lemma SplitBlankThen(sp: string, t: string)
    requires Blank(sp)
    ensures Split(sp + t) == Split(t)
  {
    TrimLeftBlank(sp, t);
  }

  /** Whitespace alone splits into no words. */
  lemma SplitBlank(sp: string)
    requires Blank(sp)
    ensures Split(sp) == []
  {
    var e: string := [];
    assert sp + e == sp;
    TrimLeftBlank(sp, e);
  }

  /** A word, then whitespace or nothing: the word comes off the front of the
      split. */
  lemma SplitLeadingWord(s0: string, a: string, rest: string)
    requires Blank(s0) && a != [] && NoSpace(a)
    requires rest == [] || IsSpace(rest[0])
    ensures Split(s0 + a + rest) == [a] + Split(rest)
  {
    assert s0 + a + rest == s0 + (a + rest);
    SplitBlankThen(s0, a + rest);
    SplitWordThen(a, rest);
  }

  /** One word with whitespace around it splits into that word. */
  lemma SplitOneWord(s0: string, a: string, s1: string)
    requires Blank(s0) && Blank(s1) && a != [] && NoSpace(a)
    ensures Split(s0 + a + s1) == [a]
  {
    SplitLeadingWord(s0, a, s1);
    SplitBlank(s1);
  }

  /** Two words with whitespace around and between them split into the two
      words, in order. */
  lemma SplitTwoWordsAmid(s0: string, a: string, s1: string, b: string, s2: string)
    requires Blank(s0) && Blank(s1) && s1 != [] && Blank(s2)
    requires a != [] && NoSpace(a) && b != [] && NoSpace(b)
    ensures Split(s0 + a + s1 + b + s2) == [a, b]
  {
    var line := s0 + a + s1 + b + s2;
    var none: seq<string> := [];
    SplitBlank(s2);
    SplitTwoWordsThen(s0, a, s1, b, s2);
    assert Split(line) == [a, b] + none;
  }

  /** Whitespace, a word, more whitespace and a word, followed by anything
      that does not continue the second word, split into the two words and
      then the words of the remainder. */
  lemma SplitTwoWordsThen(s0: string, a: string, s1: string, b: string, rest: string)
    requires Blank(s0) && Blank(s1) && s1 != []
    requires a != [] && NoSpace(a) && b != [] && NoSpace(b)
    requires rest == [] || IsSpace(rest[0])
    ensures Split(s0 + a + s1 + b + rest) == [a, b] + Split(rest)
  {
    var tail := s1 + b + rest;
    assert tail[0] == s1[0];
    assert s0 + a + s1 + b + rest == s0 + a + tail by {
      Associate(s0 + a, s1, b);
      Associate(s0 + a, s1 + b, rest);
    }
    var line := s0 + a + tail;
    var after := Split(rest);
    SplitLeadingWord(s1, b, rest);
    SplitLeadingWord(s0, a, tail);
    assert Split(line) == [a] + ([b] + after);
    ConsTwo(a, b, after);
  }

  lemma ConsTwo<T>(a: T, b: T, rest: seq<T>)
    ensures [a] + ([b] + rest) == [a, b] + rest
  {
    Associate([a], [b], rest);
  }

  /** The same with three words. */
  lemma SplitThreeWordsThen(s0: string, a: string, s1: string, b: string, s2: string, c: string, rest: string)
    requires Blank(s0) && Blank(s1) && s1 != [] && Blank(s2) && s2 != []
    requires a != [] && NoSpace(a) && b != [] && NoSpace(b) && c != [] && NoSpace(c)
    requires rest == [] || IsSpace(rest[0])
    ensures Split(s0 + a + s1 + b + s2 + c + rest) == [a, b, c] + Split(rest)
  {
    var tail := s2 + c + rest;
    assert tail[0] == s2[0];
    assert s0 + a + s1 + b + s2 + c + rest == s0 + a + s1 + b + tail by {
      Associate(s0 + a + s1 + b, s2, c);
      Associate(s0 + a + s1 + b, s2 + c, rest);
    }
    var line := s0 + a + s1 + b + tail;
    var after := Split(rest);
    SplitLeadingWord(s2, c, rest);
    SplitTwoWordsThen(s0, a, s1, b, tail);
    assert Split(line) == [a, b] + ([c] + after);
    ConsThree(a, b, c, after);
  }

  lemma ConsThree<T>(a: T, b: T, c: T, rest: seq<T>)
    ensures [a, b] + ([c] + rest) == [a, b, c] + rest
  {
    Associate([a, b], [c], rest);
    assert [a, b] + [c] == [a, b, c];
  }

  /** Concatenation regroups to the right. */
  lemma Associate<T>(u: seq<T>, v: seq<T>, w: seq<T>)
    ensures u + v + w == u + (v + w)
  {
  }

  /** `sep.join(parts)`. */
  function Join(sep: string, parts: seq<string>): string
  {
    if |parts| == 0 then ""
    else if |parts| == 1 then parts[0]
    else parts[0] + sep + Join(sep, parts[1..])
  }

  /** Python's normalisation of a slice bound against a length `n`. */
  function SliceBound(i: int, n: nat): (k: nat)
    ensures k <= n
  {
    if i < 0 then (if i + n < 0 then 0 else i + n) else if i > n then n else i
  }

  /** `s[i:j]` with Python semantics: negative bounds count from the end,
      bounds are clipped to the sequence, and an empty range gives []. */
  function PySlice<T>(s: seq<T>, i: int, j: int): (r: seq<T>)
    ensures |r| <= |s|
  {
    var a := SliceBound(i, |s|);
    var b := SliceBound(j, |s|);
    if a < b then s[a..b] else []
  }

  /** A slice with nonnegative bounds `i <= j` takes what the sequence has
      of the range: all of it, a truncated tail, or nothing. */
  lemma ForwardSlice<T>(s: seq<T>, i: nat, j: nat)
    requires i <= j
    ensures j <= |s| ==> PySlice(s, i, j) == s[i..j]
    ensures i <= |s| < j ==> PySlice(s, i, j) == s[i..]
    ensures |s| <= i ==> PySlice(s, i, j) == []
  {
  }

  /** The indices a Python list of length `n` accepts: 0 <= i < n and the
      negative -n <= i < 0. */
  predicate ValidIndex(i: int, n: int)
  {
    -n <= i < n
  }

  /** The position a valid Python index denotes. */
  function Position(i: int, n: int): (k: nat)
    requires ValidIndex(i, n)
    ensures k < n
    ensures 0 <= i ==> k == i
  {
    if i < 0 then i + n else i
  }
}

=== FILE: raster.dfy ===
/** A grayscale image as the scripts hold it: a list of rows of integers.
    Nothing forces the rows to have equal length; the predicates below say
    when they do. */
module Raster {

  type Image = seq<seq<int>>

  /** Row-major concatenation of all rows, as `sum(pixels, [])` builds it. */
  function Flatten(img: Image): (flat: seq<int>)
    ensures |img| == 0 ==> flat == []
  {
    if |img| == 0 then [] else img[0] + Flatten(img[1..])
  }

  /** `sum(s)`, adding from the front as Python does (the recursion peels
      the last entry). */
  function Sum(s: seq<int>): int
  {
    if s == [] then 0 else Sum(s[..|s| - 1]) + s[|s| - 1]
  }

  lemma {:induction false} SumConcat(a: seq<int>, b: seq<int>)
    ensures Sum(a + b) == Sum(a) + Sum(b)
  {
    if b != [] {
      var c := a + b;
      assert c[..|c| - 1] == a + b[..|b| - 1];
      SumConcat(a, b[..|b| - 1]);
    } else {
      assert a + b == a;
    }
  }

  /** Flattening the first k + 1 rows appends row k to the first k. */
  lemma {:induction false} FlattenSnoc(img: Image, k: nat)
    requires k < |img|
    ensures Flatten(img[..k + 1]) == Flatten(img[..k]) + img[k]
  {
    if k > 0 {
      FlattenSnoc(img[1..], k - 1);
      assert img[..k + 1][1..] == img[1..][..k];
      assert img[..k][1..] == img[1..][..k - 1];
    }
  }

  /** The image has at least `height` rows and each of them at least `width`
      cells, so every index of the `height` x `width` loop nest is valid. */
  predicate Covers(img: Image, height: int, width: int)
  {
    && height <= |img|
    && forall x :: 0 <= x < height ==> width <= |img[x]|
  }

  /** Every cell a `for x in range(height): for y in range(width)` loop nest
      reads exists: rows are only read when the inner loop runs. */
  predicate Reaches(img: Image, height: int, width: int)
  {
    width <= 0 || Covers(img, height, width)
  }

  /** The image is exactly `height` rows of exactly `width` cells. */
  predicate Rectangular(img: Image, height: int, width: int)
  {
    && height == |img|
    && forall x :: 0 <= x < height ==> |img[x]| == width
  }

  /** Every cell lies in [lo, hi]. */
  predicate CellsWithin(img: Image, lo: int, hi: int)
  {
    forall x, y :: 0 <= x < |img| && 0 <= y < |img[x]| ==> lo <= img[x][y] <= hi
  }

  /** A rectangular image holds exactly `height * width` cells. */
  lemma {:induction false} FlattenLength(img: Image, height: nat, width: nat)
    requires Rectangular(img, height, width)
    ensures |Flatten(img)| == height * width
  {
    if height > 0 {
      FlattenLength(img[1..], height - 1, width);
    }
  }

  /** Every entry of a sequence lies in [lo, hi]. */
  predicate AllWithin(s: seq<int>, lo: int, hi: int)
  {
    forall i :: 0 <= i < |s| ==> lo <= s[i] <= hi
  }

  lemma ConcatWithin(a: seq<int>, b: seq<int>, lo: int, hi: int)
    ensures AllWithin(a + b, lo, hi) <==> AllWithin(a, lo, hi) && AllWithin(b, lo, hi)
  {
    var c := a + b;
    if AllWithin(c, lo, hi) {
      forall i | 0 <= i < |a| ensures lo <= a[i] <= hi {
        assert a[i] == c[i];
      }
      forall i | 0 <= i < |b| ensures lo <= b[i] <= hi {
        assert b[i] == c[|a| + i];
      }
    }
    if AllWithin(a, lo, hi) && AllWithin(b, lo, hi) {
      forall i | 0 <= i < |c| ensures lo <= c[i] <= hi {
        if i < |a| {
          assert c[i] == a[i];
        } else {
          assert c[i] == b[i - |a|];
        }
      }
    }
  }

  lemma CellsWithinSplit(img: Image, lo: int, hi: int)
    requires |img| > 0
    ensures CellsWithin(img, lo, hi) <==> AllWithin(img[0], lo, hi) && CellsWithin(img[1..], lo, hi)
  {
    var tail := img[1..];
    if AllWithin(img[0], lo, hi) && CellsWithin(tail, lo, hi) {
      forall x, y | 0 <= x < |img| && 0 <= y < |img[x]|
        ensures lo <= img[x][y] <= hi
      {
        if x > 0 {
          assert img[x] == tail[x - 1];
        }
      }
    }
    if CellsWithin(img, lo, hi) {
      forall x, y | 0 <= x < |tail| && 0 <= y < |tail[x]|
        ensures lo <= tail[x][y] <= hi
      {
        assert tail[x] == img[x + 1];
      }
    }
  }

  /** The cells of an image lie in [lo, hi] exactly when the flattened
      cells do. */
  lemma {:induction false} FlattenWithin(img: Image, lo: int, hi: int)
    ensures CellsWithin(img, lo, hi) <==> AllWithin(Flatten(img), lo, hi)
  {
    if |img| > 0 {
      FlattenWithin(img[1..], lo, hi);
      CellsWithinSplit(img, lo, hi);
      ConcatWithin(img[0], Flatten(img[1..]), lo, hi);
    }
  }

  /** Row `r` of a rectangular image sits at cells `r * width` up to
      `(r + 1) * width` of the flattened image. */
  lemma {:induction false} FlattenRow(img: Image, height: nat, width: nat, r: nat)
    requires Rectangular(img, height, width) && r < height
    ensures (r + 1) * width <= |Flatten(img)|
    ensures Flatten(img)[r * width..(r + 1) * width] == img[r]
  {
    FlattenLength(img, height, width);
    RowEnd(r, width, height);
    if r > 0 {
      var tail := img[1..];
      FlattenRow(tail, height - 1, width, r - 1);
      RowStep(r, width);
      SliceAfter(img[0], Flatten(tail), (r - 1) * width, r * width);
    }
  }

  /** Row r of a height-row, width-column raster lies inside the raster. */
  lemma RowEnd(r: nat, width: nat, height: nat)
    requires r < height
    ensures r * width <= (r + 1) * width <= height * width
  {
    assert height * width == (r + 1) * width + (height - r - 1) * width;
  }

  lemma RowStep(r: int, width: int)
    ensures r * width == width + (r - 1) * width
    ensures (r + 1) * width == width + r * width
  {
  }

  lemma SliceAfter<T>(x: seq<T>, y: seq<T>, i: nat, j: nat)
    requires i <= j <= |y|
    ensures (x + y)[|x| + i..|x| + j] == y[i..j]
  {
  }
}

=== FILE: results.dfy ===
/** Failure-compatible wrappers used by every module of the model: `Option`
    for lookups that may find nothing, `Result` for operations that raise. */
module Results {

  datatype Option<+T> = None | Some(value: T)

  /** The outcome of an operation that either returns a value or raises. */
  datatype Result<+T, +E> = Success(value: T) | Failure(error: E) {

    predicate IsFailure() {
      Failure?
    }

    function PropagateFailure<U>(): Result<U, E>
      requires Failure?
    {
      Failure(error)
    }

    function Extract(): T
      requires Success?
    {
      value
    }
  }
}
